=== FILE: README.md ===
# Crop yield report: the pure core of `gen_report.py`

`gen_report.py` writes a Word report of crop-yield forecasts. For a target
fiscal year (a label such as `2024-25` or `2024-2025`) and a season, it:

- derives the two preceding fiscal-year labels;
- fetches every forecast and baseline row for those three years from a
  PostgreSQL store;
- folds the rows into a lookup keyed by crop, state, year and method;
- renders one table per crop, with a page break between crops.

A table has two header rows. "State" sits in column 0. Each forecasting
method gets a two-column "Yield / RMSE" group for the target year. The
official `MoA&FW` baseline gets one column for each preceding year.

This project models that pure core in Dafny and proves what it promises.
The core is the year-label arithmetic, the fold of query rows into the
lookup, the header builder, the column count, and the loops that place
header cells and fill data rows. It also covers the control flow of the
report, with its abort checks, its crop and state order and its page breaks.

Modules, in dependency order:

- `Wrappers`: `Option` and `Result`.
- `Decimal`: three Python string operations on integers.
  - `str(n)` for ints, including negative ones.
  - `int(s)` for a string of ASCII digits.
  - The slice `s[-2:]`.
- `FiscalYears`: `get_previous_years`.
  - A label is short (length 7) or long (length 9).
  - The start year is parsed from the text before the first dash.
  - The result is the `count` preceding labels, most recent first.
  - Each of the three `ValueError`s is a `YearError`.
- `Casing`: `str.lower()`, restricted to ASCII.
- `Ordering`: Python's string `<`, and `sorted()` of a set of strings as a
  function `SortedListing`.
- `YieldData`: the fold of lines 113-115 and the lookups the report makes on
  it. Also the soft-fail contract of `fetch_data`. The store's answer is a
  parameter `StoreReply`: either unreachable, or the method list and the
  rows.
- `Layout`:
  - `build_dynamic_headers` and `num_cols`.
  - The header-placement loop, producing merged spans (`Spanning`) and
    two-row cells (`Tall`).
  - The data-row loop, which yields the `(column, content)` writes made on a
    row.
- `Report`: `create_report` as a function from the period label and the
  store's reply to either an abort reason or the sequence of blocks
  written. A block is a crop table or a page break.
- `Scenario`: a worked end-to-end case. One crop, one state and one method,
  with a yield of 3.2 and an RMSE of 0.1. The table has one data row, which
  shows both values and two blank baseline cells.

Cell values are opaque (a type parameter `V`). A table is a header (a
sequence of cells, each covering a span of columns) plus one sequence of
writes per data row. "Every column written exactly once" is therefore a
statement about the columns of those writes.

Two details of the labels and headers, as the code has them:

- The two sub-columns of a forecast group are labelled `Yield` and `RMSE`
  (line 145).
- The short form keeps the last two *characters* of the end year's decimal
  text (line 45). For years of two or more digits that is the two-digit,
  zero-padded suffix (2005 gives `05`). For an end year from 0 to 9 it is a
  single character, not a padded pair (`Decimal.OneDigitSuffix`).
- Negative years keep their sign. `int()` reads `0000` as 0, so `0000-00` is
  accepted with start year 0. Its two preceding labels are `-1-0` and
  `-2--1` (`FiscalYears.NegativeExample`).

The report fills its data rows with the two-column guard corrected to
`c + 1 < num_cols` (see Findings). `Layout.FillCells` keeps the loop as
written. `Layout.GuardsAgree` proves that the two loops write the same cells
for every column count the report derives, so the correction changes nothing
in any report the code produces.

## Model

| member | source | states |
|---|---|---|
| Decimal.NatToString | gen_report.py:45-47 | `str(n)` of a non-negative int is a canonical digit string: non-empty, digits only, no leading zero unless n is 0. Its last character is the units digit. |
| Decimal.ParseNat | gen_report.py:38 | `int()` of the prefix succeeds exactly when the prefix is non-empty and all ASCII digits. |
| Decimal.LeadingZeroValue | gen_report.py:38 | A leading `0` does not change the value of a digit string. |
| Decimal.ParseLeadingZero | gen_report.py:38 | `int()` ignores a leading zero: `int("0" + s)` is `int(s)` for any non-empty digit string s. |
| Decimal.IntToString | gen_report.py:43-47 | `str(i)` of any int starts with `-` exactly when i is negative. The digits after any sign are canonical (no leading zero unless the magnitude is 0) and parse back to the magnitude. With Decimal.ParseIffRender this fixes the text for every int. |
| Decimal.LastTwo | gen_report.py:45 | `s[-2:]` is a suffix of s, of length 2, or all of s when it is shorter. |
| Decimal.ParseRendered | gen_report.py:38 | Parsing what `str` printed gives the number back. |
| Decimal.RenderParsed | gen_report.py:38 | A canonical digit string is exactly what `str` prints for its value. |
| Decimal.ParseIffRender | gen_report.py:38 | Parsing and printing are inverse on canonical spellings, in both directions (an if-and-only-if). |
| Decimal.TwoDigitSuffix | gen_report.py:45 | For an end year of at least 10, the short suffix is its tens digit then its units digit, so 2005 gives `05`. |
| Decimal.OneDigitSuffix | gen_report.py:45 | An end year from 0 to 9 keeps its single digit as its suffix. |
| Decimal.FourDigits | gen_report.py:43-47 | A four-digit year prints as its four digits in order. |
| Decimal.FourDigitYear | gen_report.py:43-47 | A four-digit year prints as four characters. |
| FiscalYears.FormOf | gen_report.py:36-66 | The branch taken on the label's length: short exactly when it has 7 characters (line 36), long exactly when it has 9 (line 52), and neither otherwise (line 65). |
| FiscalYears.BeforeDash | gen_report.py:38 | `split('-')[0]` is a dash-free prefix of the label. It ends at the first dash, or covers the whole label when there is no dash. |
| FiscalYears.StartYearOf | gen_report.py:38 | `int()` of the text before the first dash succeeds exactly when that text is non-empty and all ASCII digits. When the text is canonical, the year prints back as that text. Leading zeros are read as `int()` reads them (`Decimal.ParseLeadingZero`, `FiscalYears.ZeroStart`). |
| FiscalYears.EndText | gen_report.py:44-59 | The long form prints the whole end year (line 59). The short form is the suffix of the end year's printed text made of its last two characters (line 45), or all of that text when it is shorter. For an end year of 10 or more, those are its tens digit and then its units digit. |
| FiscalYears.SpanLabel | gen_report.py:47 | `f"{prev_start}-{prev_end}"` (also line 61) is, character for character, the printed start year, then one dash, then the end text of the form. Its length is the sum of those parts. For a non-negative start, the text before the first dash is that year, and it parses back to that year. |
| FiscalYears.PrefixBeforeDash | gen_report.py:38 | For a digit string followed by a dash, `split('-')[0]` is exactly the digit string. |
| FiscalYears.PrecedingSpans | gen_report.py:41-44 | The loop runs `max(count, 0)` times. Entry k spans `base-(k+1)` to `base-k`, so each span ends one year after it starts. |
| FiscalYears.SpansAreContiguous | gen_report.py:43-44 | The first span ends at the base year. Each later span ends where the previous one starts. Start years strictly decrease. |
| FiscalYears.Labels | gen_report.py:41-47 | There are `max(count, 0)` labels. Label k is `f"{start}-{end}"` of the k-th preceding span, in the form's end rendering. |
| FiscalYears.PreviousYears | gen_report.py:22-68 | The three `ValueError` cases, each as an if-and-only-if on the label: any length other than 7 or 9; length 7 with an unparsable prefix; length 9 with an unparsable prefix. There is no partial result. Otherwise the result is the labels of the parsed start year, with the input's own suffix ignored. |
| FiscalYears.PreviousOf | gen_report.py:36-61 | A label of known form and start year yields exactly that form's labels of that year. |
| FiscalYears.StartOfPrinted | gen_report.py:38 | A label made of a printed year and then a dash has that year as its start. |
| FiscalYears.FourDigitLabelLength | gen_report.py:36-61 | A label of four-digit years has its form's length: 7 when short, 9 when long. |
| FiscalYears.FirstLabel | gen_report.py:36-47 | The label of a span of four-digit years is accepted again with the same form, and it names its start year. |
| FiscalYears.LabelsShift | gen_report.py:41-47 | The labels before the previous year are the labels before this year, minus the first one. |
| FiscalYears.LabelShifted | gen_report.py:41-47 | Label k counted from the previous year is label k+1 counted from this year. |
| FiscalYears.LabelsOne | gen_report.py:41-47 | With a count of one, the loop produces the single label of the span ending at the base year. |
| FiscalYears.LabelsTwo | gen_report.py:41-47 | With a count of two, the loop produces the span ending at the base year, then the span before it. |
| FiscalYears.StepBack | gen_report.py:22-68 | For four-digit years, the first preceding label is a valid label of the same form. Deriving `n` labels from it gives the rest of the `n+1` labels derived from the input. |
| FiscalYears.TwoPrevious | gen_report.py:77 | With the count of two that the callers unpack, the result is exactly the year just before, then the year before that. |
| FiscalYears.OnePrevious | gen_report.py:41-47 | With a count of one, the result is exactly the year just before. |
| FiscalYears.ShortExample | gen_report.py:36-47 | `2024-25` gives `2023-24`, then `2022-23`. |
| FiscalYears.PaddedExample | gen_report.py:45 | `2005-06` with a count of one gives `2004-05`: the zero is kept. |
| FiscalYears.LongExample | gen_report.py:52-61 | `2024-2025` gives `2023-2024`, then `2022-2023`. |
| FiscalYears.FailureExamples | gen_report.py:36-66 | `2024` and the empty label fail on length. `abcd-ef` fails on its prefix. |
| FiscalYears.ZeroStart | gen_report.py:38 | The label `0000-00` has start year 0: `int("0000")` is 0. |
| FiscalYears.NegativeLabel | gen_report.py:43-47 | A short label with a negative start is the printed start, a dash, and the printed end when that is at most two characters. |
| FiscalYears.NegativeLabels | gen_report.py:43-47 | The spans `-1..0` and `-2..-1` print as `-1-0` and `-2--1` in the short form. |
| FiscalYears.NegativeExample | gen_report.py:36-47 | `0000-00` with a count of two gives `-1-0`, then `-2--1`: the years before year 0 print with their sign. |
| Casing.Lower | gen_report.py:115 | `crop.lower()` keeps the length and leaves no upper-case letter. Each capital becomes its own small letter, 32 code points up, and every other character is unchanged. |
| Casing.LowerIdempotent | gen_report.py:115 | Lower-casing twice is lower-casing once. |
| Casing.LowerIgnoresCase | gen_report.py:115 | Two names of equal length whose characters agree position by position, up to swapping a capital with its small letter, fold to the same crop key. |
| Ordering.Below | gen_report.py:246 | Python's string `<` never holds between equal strings. A proper prefix is always below the longer string. |
| Ordering.BelowTransitive | gen_report.py:246 | Python's string `<` is transitive. |
| Ordering.BelowTotal | gen_report.py:246 | Any two different strings are ordered one way or the other. |
| Ordering.BelowAsymmetric | gen_report.py:246 | Two strings are never each below the other. |
| Ordering.SortedListing | gen_report.py:246 | `sorted()` of a key set is strictly increasing, has exactly the set's members, and has one entry per member. |
| Ordering.ListingUnique | gen_report.py:293 | Two strictly increasing listings of the same set are equal, so the sorted order is determined by the set alone. |
| Ordering.LeastExists | gen_report.py:246 | A non-empty set of strings has a least member, the first entry `sorted()` yields. |
| Ordering.LeastUnique | gen_report.py:246 | A set of strings has at most one least member. |
| YieldData.Reshape | gen_report.py:113-115 | The keys of the folded lookup are exactly the keys of the rows. A key, built from the lower-cased crop, state, year and method, holds the `(yield, rmse)` of the last row that carries it. |
| YieldData.ReshapeStep | gen_report.py:114-115 | Folding one more row keeps both halves of the lookup's contract. |
| YieldData.StepKeys | gen_report.py:114-115 | Folding one more row adds exactly that row's key. |
| YieldData.StepValues | gen_report.py:114-115 | After one more row, each key still holds its last row's values. |
| YieldData.FindAfterReshape | gen_report.py:115 | Looking up a row's coordinates gives `(None, None)` when no row has that key. Otherwise it gives the values of the last row with that key. |
| YieldData.CropsOf | gen_report.py:246 | `data.keys()`: the crop of every key of the folded lookup is listed, and the listing is empty exactly when the lookup is. |
| YieldData.StatesOf | gen_report.py:293 | `data[crop].keys()`: the state of every key with that crop is listed. The listing is non-empty only for a listed crop; YieldData.CropHasStates is the converse. |
| YieldData.Find | gen_report.py:301 | `years.get(year, {}).get(model, (None, None))` returns the stored pair when the key is present. Any non-`None` half implies that the key is present. |
| YieldData.CropHasStates | gen_report.py:252-256 | A crop present in the folded lookup has at least one state, so the empty-crop skip never fires on it. |
| YieldData.FoldedCropsAreLower | gen_report.py:115 | Every crop key of the folded lookup is already lower-case. |
| YieldData.FetchData | gen_report.py:71-125 | A rejected period label or an unreachable store gives an empty lookup and no methods. Otherwise the result is the answered method list and the fold of the answered rows, keyed by exactly the rows' keys. A non-empty lookup implies an accepted label. |
| Layout.HeadersFrom | gen_report.py:137-150 | When `get_previous_years` returns two labels, the builder assembles the groups from exactly those two labels. |
| Layout.BuildHeaders | gen_report.py:132-150 | The builder returns no groups exactly when the label is rejected. Otherwise it returns `len(methods)+2` groups: one `(period, method, [Yield, RMSE])` per method in the given order, then `(prev1, MoA&FW, [])` and `(prev2, MoA&FW, [])`. |
| Layout.Assemble | gen_report.py:142-150 | Lays the groups out: forecast groups in method order, then the two baselines. |
| Layout.TotalWidth | gen_report.py:244 | The sum of `len(subs) if subs else 1` is at least one per group, and at most two per group when no group has more than two sub-columns. |
| Layout.NumCols | gen_report.py:244 | `num_cols` is at least one more than the number of groups, and at most twice the number of groups plus one for groups at most two wide. |
| Layout.BuiltColumns | gen_report.py:244 | The builder's groups have 0 or 2 sub-columns, and `num_cols` is `3 + 2*len(methods)`. |
| Layout.AssembledColumns | gen_report.py:244 | Assembled groups are 0 or 2 sub-columns wide, and the column count is three plus two per method. |
| Layout.TotalWidthAppend | gen_report.py:244 | The column sum is additive over concatenated group lists. |
| Layout.MetricGroupsWidth | gen_report.py:244 | Groups with the two metric sub-columns contribute two columns each. |
| Layout.ForecastsThenBaselines | gen_report.py:244 | Forecast groups and then two baselines sum to two columns per forecast, plus two. |
| Layout.CellFor | gen_report.py:279-290 | The cell of a group at `col_index`. A group with several sub-columns gets a merged span titled `f"{year} {model}"` that carries its sub-column labels (lines 281-285). Any other group gets a two-row cell titled `f"{year}\n{model}"` (lines 288-289). |
| Layout.LaidTitles | gen_report.py:278-290 | When every group is laid, cell i carries the titles of group i. |
| Layout.PlacedTitles | gen_report.py:277-290 | Every cell the header loop places carries the titles, and for a span the sub-column labels, of a group at or after its own position in the list (skipped groups shift later cells left). |
| Layout.PlaceHeaders | gen_report.py:277-290 | The header loop places at most one cell per group. `col_index` never moves backwards, and it stays within `num_cols` when it starts within it. Every column a placed cell covers lies between the starting column and `num_cols - 1`. |
| Layout.HeaderGuardsNeverFire | gen_report.py:277-290 | When the groups fit, neither header guard fires. Every group is placed right after the previous one, and the loop ends just past the last group. |
| Layout.LaidCoversColumns | gen_report.py:278-290 | The placed header cells cover each column of their range once, left to right. |
| Layout.CellCovers | gen_report.py:279-290 | A group's cell covers exactly its own columns: a span for several sub-columns, one column otherwise. |
| Layout.HeaderFillsTable | gen_report.py:273-290 | With the derived `num_cols`, the header loop ends with `col_index == num_cols`. It places one cell per group, and cell i carries the titles and sub-column labels of group i. Together with "State" the cells cover columns `0..num_cols-1` once each. |
| Layout.HeaderIsLaid | gen_report.py:277-290 | With the derived `num_cols`, the header loop lays every group and ends at `num_cols`. |
| Layout.StateColumnFirst | gen_report.py:273-275 | "State" in column 0, followed by cells covering columns `1..n-1`, covers `0..n-1`. |
| Layout.Show | gen_report.py:157 | A value renders blank exactly when it is `None`. A present value shows as itself. |
| Layout.FillCells | gen_report.py:299-309 | The data-row loop as written writes only at or after its starting column, and never past column `num_cols`. The bound is `num_cols`, one past the row, because of the guard at line 304 (see Findings). |
| Layout.FillChecked | gen_report.py:299-309 | The data-row loop with the two-column guard corrected to `c + 1 < num_cols` (see Findings). Every cell it writes lies inside the row. |
| Layout.RowGuardsNeverFire | gen_report.py:299-309 | When the groups fit, the row loop as written fires neither guard and writes exactly the intended cells. |
| Layout.CheckedGuardsNeverFire | gen_report.py:299-309 | When the groups fit, the corrected row loop writes the same intended cells. |
| Layout.GuardsAgree | gen_report.py:299-309 | With the derived `num_cols`, the loop as written and the corrected loop write exactly the same cells. |
| Layout.RowGuardOffByOne | gen_report.py:304-306 | As written, a two-column group with one column left is let through and writes one column past the row. The corrected guard skips it. |
| Layout.FilledWritesEachColumnOnce | gen_report.py:299-309 | For groups at most two wide, the intended row writes each column of its range once, in order. |
| Layout.GroupColumns | gen_report.py:303-309 | A group at most two wide writes exactly the columns it occupies. |
| Layout.RowFillsTable | gen_report.py:295-309 | A data row writes the state in column 0 and then every column up to `num_cols-1`, each once and in order. |
| Layout.GroupShows | gen_report.py:301-309 | A missing `(year, method)` shows blank in every cell of its group. Otherwise the yield shows first and, for a two-column group, the RMSE second, each half blank exactly when it is `None`. A single-column group shows the yield only. |
| Layout.WideGroupLeavesGap | gen_report.py:279-285 | A three-sub-column group reserves three header columns, but its row writes only two. |
| Report.HeaderOf | gen_report.py:273-290 | The header rows start with "State" merged down column 0, then hold at most one cell per group. Every column a group cell covers lies in `1..num_cols-1`. |
| Report.RowOf | gen_report.py:295-309 | A data row writes the state name in column 0 first. Every later write is to a column in `1..num_cols-1`. |
| Report.MakeTable | gen_report.py:269-309 | A crop's table has one row per state of the crop. Each row opens with a state name of that crop in column 0, and the rows are in strictly increasing state order. The header is the header rows of the groups. Each row is the data row of its state, filled from the lookup. |
| Report.RenderCrops | gen_report.py:251-315 | Every table the crop loop emits is for a listed crop that has states. Every page break directly follows a table. There are at most two blocks per remaining crop. |
| Report.CreateReport | gen_report.py:192-315 | The only abort is for lack of data. A written report implies an accepted label and a store that answered with rows, and each of its tables is for a crop of the folded rows. |
| Report.SeparatedShape | gen_report.py:314-315 | In separated tables, table k sits at position 2k with a page break between each two, and there are `2n-1` blocks. |
| Report.TablesFrom | gen_report.py:251-252 | The tables of the crops from index i on, one per crop, in order. |
| Report.CropLoopSeparates | gen_report.py:251-315 | When every crop has states, the crop loop skips none. Its output is the crops' tables, with a page break after every crop but the last. |
| Report.CropStep | gen_report.py:251-315 | One iteration of the crop loop: a table, then a page break unless it is the last crop. |
| Report.AbortsExactlyWithoutData | gen_report.py:194-198 | The report aborts for lack of data exactly when the label is rejected, the store is unreachable, or no rows come back. |
| Report.WrittenShape | gen_report.py:238-315 | A written report has one table per crop in sorted order, separated by page breaks, and each table is `3 + 2*len(methods)` columns wide. |
| Report.LoopShape | gen_report.py:246-315 | On a non-empty lookup, the crop loop emits `2*crops-1` blocks: tables at even positions, page breaks at odd ones. |
| Report.TableShape | gen_report.py:273-309 | A crop table's header is "State" and then one cell per group, each with its group's titles, covering every column once. The table has one row per state, in strictly increasing order. Row k is state k's name followed by the cells of every group, filled from the lookup, and it writes every column once. |
| Report.HeaderOfFills | gen_report.py:273-290 | With the derived `num_cols`, the header rows are "State" and then one titled cell per group, covering every column once. |
| Report.RowIsFilled | gen_report.py:295-309 | With the derived `num_cols`, a data row is the state name followed by the intended cells, with none dropped. |
| Scenario.FoldedScenario | gen_report.py:113-115 | The single scenario row folds to a one-key lookup under the lower-cased crop. |
| Scenario.ScenarioListings | gen_report.py:246-293 | The scenario lists crop `rice` and state `Assam`. |
| Scenario.ScenarioHeaders | gen_report.py:132-150 | The scenario's header groups are `2024-25 ML [Yield, RMSE]`, then `2023-24 MoA&FW` and `2022-23 MoA&FW`. There are 5 columns. |
| Scenario.ScenarioAssembled | gen_report.py:142-150 | The scenario's method list and previous years assemble to its three groups. |
| Scenario.ScenarioColumns | gen_report.py:244 | The scenario's groups give `num_cols == 5`. |
| Scenario.ScenarioFilled | gen_report.py:299-309 | The scenario row shows 3.2 and 0.1, then two blanks. |
| Scenario.ScenarioRow | gen_report.py:295-309 | The scenario row is `Assam`, 3.2, 0.1, blank, blank. |
| Scenario.ScenarioTable | gen_report.py:293-309 | The scenario table has exactly that one data row. |
| Scenario.EndToEnd | gen_report.py:192-315 | The scenario report is written as a single table holding that one row. |

## Left out

- The PostgreSQL connection, both SQL queries and the connection settings (lines 13-19, 87-125). These are external I/O. The method list and the rows are a parameter, `StoreReply`. "Unreachable" stands for the `OperationalError` path.
- The Word document: styling, the mechanics of cell merging, the XML alignment and border elements, the logo, the title paragraphs, the crop title and `doc.save` (lines 154-180, 200-235, 260-270, 318-319). These are foreign library calls. Tables are abstract: header spans and `(column, content)` writes.
- The footer, which depends on the wall clock (lines 182-188). The `print` diagnostics and the command-line parser (lines 324-336) are also left out.
- `str()` of the yield and RMSE values (line 157). Values are opaque; only `None` versus present is modelled.
- Unicode `str.lower()` and the quirks of Python's `int()`, such as spaces, signs, `_` and non-ASCII digits. Lower-casing is ASCII only. A prefix parses exactly when it is a non-empty string of ASCII digits.
- The year column is treated as text already, so `str(year)` at line 115 is the identity.
- Layout.FilledWritesEachColumnOnce: requires every group to have at most two sub-columns, because the row loop writes only two cells for any wider group (`Layout.WideGroupLeavesGap`). The builder's groups meet this (`Layout.BuiltColumns`).
- Layout.RowFillsTable: the same at-most-two-sub-columns requirement, for the same reason.
- Report.TableShape: the same at-most-two-sub-columns requirement, for the same reason.
- FiscalYears.StepBack: stated for four-digit start years only. With fewer digits a produced label no longer has length 7 or 9, so stepping back from it fails, as the code does.
- Layout.PlaceHeaders: its own contract bounds the columns only. The titles of the cells it places are a separate lemma, Layout.PlacedTitles, and with the derived `num_cols` Layout.HeaderFillsTable pairs cell i with group i. Keeping the titles out of the function's contract keeps the proofs that unfold the loop small.
- Report.CropLoopSeparates: stated for crops that all have states. On a folded lookup every crop does (`YieldData.CropHasStates`), so the skip at lines 254-256 never fires in a report.

## Findings

| source | as written | input that shows it | evidently intended | confidence | as-written member | corrected member |
|---|---|---|---|---|---|---|
| gen_report.py:304-306 | The two-column guard `c + 1 <= num_cols` lets a group through when only column `c` is left. The loop writes column `c`, then raises `IndexError` at `row[c + 1]`, one past the end. The model records that second write as a write to column `num_cols`, so `Layout.FillCells` only bounds its columns by `num_cols`. | One `[Yield, RMSE]` group at `c = 1` with `num_cols = 2`: the guard passes and the loop writes columns 1 and 2, but the row has only columns 0 and 1. | `c + 1 < num_cols`, matching the header guard at line 280, which skips the group. With the column count derived from the groups, the two agree (`Layout.GuardsAgree`), so no report the code builds reaches the defect. | medium; not executed | Layout.RowGuardOffByOne | Layout.FillChecked |

=== FILE: casing.dfy ===
/** `str.lower()` restricted to ASCII letters. */
module Casing {

  predicate IsUpper(c: char) {
    'A' <= c <= 'Z'
  }

  function LowerChar(c: char): char {
    if IsUpper(c) then (c as int + 32) as char else c
  }

  /** `c` and `d` are the same letter in the two cases, `c` the capital: 'A' and 'a' are 32 code points apart. */
  predicate CapitalOf(c: char, d: char) {
    IsUpper(c) && d as int == c as int + 32
  }

  /** Lower-cases every ASCII capital and leaves every other character alone. */
  function Lower(s: string): (r: string)
    ensures |r| == |s|
    ensures forall i :: 0 <= i < |s| ==> !IsUpper(r[i])
    ensures forall i :: 0 <= i < |s| && IsUpper(s[i]) ==> CapitalOf(s[i], r[i])
    ensures forall i :: 0 <= i < |s| && !IsUpper(s[i]) ==> r[i] == s[i]
  {
    seq(|s|, i requires 0 <= i < |s| => LowerChar(s[i]))
  }

  /** Lower-casing twice is lower-casing once. */
  lemma LowerIdempotent(s: string)
    ensures Lower(Lower(s)) == Lower(s)
  {
  }

  /** Names that differ only in the case of their letters lower-case to the same key. */
  lemma LowerIgnoresCase(s: string, t: string)
    requires |s| == |t|
    requires forall i :: 0 <= i < |s| ==> s[i] == t[i] || CapitalOf(s[i], t[i]) || CapitalOf(t[i], s[i])
    ensures Lower(s) == Lower(t)
  {
    forall i | 0 <= i < |s|
      ensures Lower(s)[i] == Lower(t)[i]
    {
      if CapitalOf(s[i], t[i]) {
        assert !IsUpper(t[i]);
      } else if CapitalOf(t[i], s[i]) {
        assert !IsUpper(s[i]);
      }
    }
  }
}

=== FILE: decimal.dfy ===
/**
 * Decimal text for integers, as the report script uses it: Python's `str(n)`
 * for an int, `int(s)` for a string of ASCII digits, and the slice `s[-2:]`.
 */
module Decimal {
  import opened Wrappers

  predicate IsDigit(c: char) {
    '0' <= c <= '9'
  }

  predicate AllDigits(s: string) {
    forall i :: 0 <= i < |s| ==> IsDigit(s[i])
  }

  /** The canonical decimal spelling of a natural number: digits only, no leading zero except "0" itself. */
  predicate Canonical(s: string) {
    |s| > 0 && AllDigits(s) && (s[0] == '0' ==> |s| == 1)
  }

  function DigitChar(d: nat): (c: char)
    requires d < 10
    ensures IsDigit(c)
  {
    (48 + d) as char
  }

  function DigitValue(c: char): (d: nat)
    requires IsDigit(c)
    ensures d < 10 && DigitChar(d) == c
  {
    (c as int - 48) as nat
  }

  /** `str(n)` for a non-negative int. */
  function NatToString(n: nat): (s: string)
    ensures Canonical(s)
    ensures (s[0] == '0') <==> n == 0
    ensures s[|s| - 1] == DigitChar(n % 10)
    decreases n
  {
    if n < 10 then [DigitChar(n)] else NatToString(n / 10) + [DigitChar(n % 10)]
  }

  /** The value of a string of digits, most significant first. */
  function DigitsValue(s: string): nat
    requires AllDigits(s)
    decreases |s|
  {
    if |s| == 0 then 0 else DigitsValue(s[..|s| - 1]) * 10 + DigitValue(s[|s| - 1])
  }

  /** `int(s)` restricted to plain decimal digits: `None` stands for the ValueError. */
  function ParseNat(s: string): (r: Option<nat>)
    ensures r.Some? <==> |s| > 0 && AllDigits(s)
  {
    if |s| > 0 && AllDigits(s) then Some(DigitsValue(s)) else None
  }

  /** `str(i)` for any int: a minus sign before the digits of a negative number. */
  function IntToString(i: int): (s: string)
    ensures |s| > 0
    ensures (s[0] == '-') <==> i < 0
    ensures i >= 0 ==> ParseNat(s) == Some(i)
    ensures i < 0 ==> ParseNat(s[1..]) == Some(-i)
    ensures Canonical(if i < 0 then s[1..] else s)
  {
    if i < 0 then
      ParseRendered(-i);
      "-" + NatToString(-i)
    else
      ParseRendered(i);
      NatToString(i)
  }

  /** Python's `s[-2:]`: the last two characters, or the whole string when shorter. */
  function LastTwo(s: string): (t: string)
    ensures |t| == if |s| < 2 then |s| else 2
    ensures t == s[|s| - |t|..]
  {
    if |s| < 2 then s else s[|s| - 2..]
  }

  /** Parsing what `str` printed gives the number back. */
  lemma {:induction false} ParseRendered(n: nat)
    ensures ParseNat(NatToString(n)) == Some(n)
    decreases n
  {
    var s := NatToString(n);
    if n >= 10 {
      ParseRendered(n / 10);
      assert s[..|s| - 1] == NatToString(n / 10);
      assert DigitValue(s[|s| - 1]) == n % 10;
    } else {
      assert s == [DigitChar(n)];
      assert DigitsValue(s) == DigitsValue(s[..0]) * 10 + DigitValue(s[0]);
      assert s[..0] == [];
    }
  }

  lemma {:induction false} LeadingDigitPositive(s: string)
    requires |s| > 0 && AllDigits(s) && s[0] != '0'
    ensures DigitsValue(s) > 0
    decreases |s|
  {
    if |s| > 1 {
      LeadingDigitPositive(s[..|s| - 1]);
    }
  }

  /** The other direction: a canonical digit string is exactly what `str` prints for its value. */
  lemma {:induction false} RenderParsed(s: string)
    requires Canonical(s)
    ensures NatToString(DigitsValue(s)) == s
    decreases |s|
  {
    if |s| > 1 {
      var init := s[..|s| - 1];
      var d := DigitValue(s[|s| - 1]);
      LeadingDigitPositive(init);
      RenderParsed(init);
      var n := DigitsValue(s);
      assert n == DigitsValue(init) * 10 + d;
      assert n / 10 == DigitsValue(init) && n % 10 == d;
      assert s == init + [s[|s| - 1]];
    }
  }

  /** Parsing and printing are inverse on canonical spellings, in both directions. */
  lemma ParseIffRender(s: string, n: nat)
    ensures (ParseNat(s) == Some(n) && Canonical(s)) <==> NatToString(n) == s
  {
    if NatToString(n) == s {
      ParseRendered(n);
    }
    if ParseNat(s) == Some(n) && Canonical(s) {
      RenderParsed(s);
    }
  }

  /** A leading zero adds nothing to a digit string's value. */
  lemma {:induction false} LeadingZeroValue(s: string)
    requires AllDigits(s)
    ensures DigitsValue(['0'] + s) == DigitsValue(s)
    decreases |s|
  {
    var z := ['0'] + s;
    if |s| == 0 {
      assert z[..0] == [];
    } else {
      assert z[..|z| - 1] == ['0'] + s[..|s| - 1];
      LeadingZeroValue(s[..|s| - 1]);
    }
  }

  /**
   * `int()` ignores leading zeros: `int("0024") == int("24")`. With
   * `ParseIffRender` this fixes the value of every digit string.
   */
  lemma ParseLeadingZero(s: string)
    requires |s| > 0 && AllDigits(s)
    ensures ParseNat(['0'] + s) == ParseNat(s)
  {
    LeadingZeroValue(s);
  }

  /** The two-character suffix of a year of at least two digits is its tens and units digit, zero-padded. */
  lemma TwoDigitSuffix(n: int)
    requires n >= 10
    ensures LastTwo(IntToString(n)) == [DigitChar((n / 10) % 10), DigitChar(n % 10)]
  {
    var s := NatToString(n);
    assert s == NatToString(n / 10) + [DigitChar(n % 10)];
  }

  /** A year from 0 to 9 prints as one digit, so its "last two characters" are just that digit. */
  lemma OneDigitSuffix(n: int)
    requires 0 <= n < 10
    ensures LastTwo(IntToString(n)) == [DigitChar(n)]
  {
  }

  /** A four-digit number prints as its four digits. */
  lemma FourDigits(n: nat)
    requires 1000 <= n <= 9999
    ensures NatToString(n) == [DigitChar(n / 1000), DigitChar(n / 100 % 10), DigitChar(n / 10 % 10), DigitChar(n % 10)]
  {
    var a, b, c := n / 10, n / 100, n / 1000;
    assert a / 10 == b && b / 10 == c;
    assert NatToString(c) == [DigitChar(c)];
    assert NatToString(b) == NatToString(c) + [DigitChar(b % 10)];
    assert NatToString(a) == NatToString(b) + [DigitChar(a % 10)];
  }

  /** Four-digit years print as four characters. */
  lemma FourDigitYear(n: int)
    requires 1000 <= n <= 9999
    ensures |IntToString(n)| == 4
  {
    FourDigits(n);
  }
}

=== FILE: fiscal_years.dfy ===
/**
 * Fiscal-year labels ("2024-25" or "2024-2025") and the derivation of the
 * labels that precede one (`get_previous_years` in gen_report.py).
 */
module FiscalYears {
  import opened Wrappers
  import opened Decimal

  /** The two accepted label shapes: `YYYY-YY` (seven characters) and `YYYY-YYYY` (nine). */
  datatype Form = Short | Long

  /** The three ValueError messages the derivation can raise. */
  datatype YearError =
    | ShortNotParsable   // length 7 but the prefix is not an integer
    | LongNotParsable    // length 9 but the prefix is not an integer
    | UnknownLength      // any other length

  /** A fiscal year as a pair of calendar years. */
  datatype Span = Span(start: int, end: int)

  /** The form is decided by the length alone. */
  function FormOf(period: string): (f: Option<Form>)
    ensures f == Some(Short) <==> |period| == 7
    ensures f == Some(Long) <==> |period| == 9
  {
    if |period| == 7 then Some(Short)
    else if |period| == 9 then Some(Long)
    else None
  }

  /** `s.split('-')[0]`: everything before the first dash, or all of `s` when it has none. */
  function BeforeDash(s: string): (p: string)
    ensures |p| <= |s| && p == s[..|p|]
    ensures forall i :: 0 <= i < |p| ==> p[i] != '-'
    ensures |p| < |s| ==> s[|p|] == '-'
  {
    if |s| == 0 || s[0] == '-' then [] else [s[0]] + BeforeDash(s[1..])
  }

  /** The start year a label names, when its prefix parses. */
  function StartYearOf(period: string): (y: Option<nat>)
    ensures y.Some? <==> |BeforeDash(period)| > 0 && AllDigits(BeforeDash(period))
    ensures y.Some? && Canonical(BeforeDash(period)) ==> NatToString(y.value) == BeforeDash(period)
  {
    var prefix := BeforeDash(period);
    if Canonical(prefix) then
      RenderParsed(prefix);
      ParseNat(prefix)
    else ParseNat(prefix)
  }

  /**
   * The `count` fiscal years before the one starting in `base`, most recent
   * first: entry k spans `base - (k + 1)` to `base - k`.
   */
  function PrecedingSpans(base: int, count: int): (r: seq<Span>)
    ensures |r| == if count > 0 then count else 0
    ensures forall k :: 0 <= k < |r| ==> r[k].start == base - (k + 1) && r[k].end == r[k].start + 1
    decreases count
  {
    if count <= 0 then [] else PrecedingSpans(base, count - 1) + [Span(base - count, base - count + 1)]
  }

  /** How the end year is printed: its last two characters in the short form, in full in the long form. */
  function EndText(form: Form, end: int): (t: string)
    ensures form == Long ==> t == IntToString(end)
    ensures form == Short ==> |t| == (if |IntToString(end)| < 2 then |IntToString(end)| else 2)
    ensures form == Short ==> t == IntToString(end)[|IntToString(end)| - |t|..]
    ensures form == Short && end >= 10 ==> t == [DigitChar((end / 10) % 10), DigitChar(end % 10)]
  {
    match form
    case Short =>
      if end >= 10 then
        TwoDigitSuffix(end);
        LastTwo(IntToString(end))
      else LastTwo(IntToString(end))
    case Long => IntToString(end)
  }

  /** The `f"{prev_start}-{prev_end}"` label of a span. */
  function SpanLabel(form: Form, s: Span): (l: string)
    ensures |l| == |IntToString(s.start)| + 1 + |EndText(form, s.end)|
    ensures var n := |IntToString(s.start)|;
      && l[..n] == IntToString(s.start)
      && l[n] == '-'
      && l[n + 1..] == EndText(form, s.end)
    ensures s.start >= 0 ==> BeforeDash(l) == NatToString(s.start) && StartYearOf(l) == Some(s.start)
  {
    var digits := IntToString(s.start);
    var rest := "-" + EndText(form, s.end);
    DashJoin(digits, EndText(form, s.end));
    if s.start >= 0 then
      PrefixBeforeDash(digits, rest);
      ParseRendered(s.start);
      digits + rest
    else digits + rest
  }

  /** Two texts joined by a dash split back at the dash's position. */
  lemma DashJoin(a: string, b: string)
    ensures var l := a + ("-" + b);
      && l[..|a|] == a
      && l[|a|] == '-'
      && l[|a| + 1..] == b
  {
    var l := a + ("-" + b);
    assert l[..|a|] == a;
    assert l[|a| + 1..] == b;
  }

  /**
   * `get_previous_years(period, count)`. The input's own suffix is never read;
   * a bad length or an unparsable prefix fails as a whole, with no partial list.
   */
  function PreviousYears(period: string, count: int): (r: Result<seq<string>, YearError>)
    ensures r == Failure(UnknownLength) <==> |period| != 7 && |period| != 9
    ensures r == Failure(ShortNotParsable) <==> |period| == 7 && StartYearOf(period).None?
    ensures r == Failure(LongNotParsable) <==> |period| == 9 && StartYearOf(period).None?
    ensures r.Success? ==> r.value == Labels(FormOf(period).value, StartYearOf(period).value, count)
  {
    match FormOf(period)
    case None => Failure(UnknownLength)
    case Some(form) =>
      match StartYearOf(period)
      case None => Failure(if form == Short then ShortNotParsable else LongNotParsable)
      case Some(base) => Success(Labels(form, base, count))
  }

  /**
   * The labels of the `count` fiscal years before the one starting in
   * `base`, most recent first: `max(count, 0)` of them, entry k naming the
   * span from `base - (k + 1)` to `base - k`.
   */
  function Labels(form: Form, base: int, count: int): (r: seq<string>)
    ensures |r| == if count > 0 then count else 0
    ensures forall k :: 0 <= k < |r| ==> r[k] == SpanLabel(form, Span(base - (k + 1), base - k))
  {
    var spans := PrecedingSpans(base, count);
    seq(|spans|, k requires 0 <= k < |spans| => SpanLabel(form, spans[k]))
  }

  /** Consecutive preceding spans abut: each one ends where the next more recent one starts. */
  lemma SpansAreContiguous(base: int, count: int)
    ensures var r := PrecedingSpans(base, count);
      && (|r| > 0 ==> r[0].end == base)
      && (forall k :: 0 < k < |r| ==> r[k].end == r[k - 1].start)
      && (forall k, j :: 0 <= k < j < |r| ==> r[j].start < r[k].start)
  {
  }

  lemma {:induction false} PrefixBeforeDash(digits: string, rest: string)
    requires AllDigits(digits)
    requires |rest| > 0 && rest[0] == '-'
    ensures BeforeDash(digits + rest) == digits
    decreases |digits|
  {
    if |digits| == 0 {
      assert (digits + rest)[0] == '-';
    } else {
      assert (digits + rest)[1..] == digits[1..] + rest;
      PrefixBeforeDash(digits[1..], rest);
    }
  }

  /** A span of four-digit years renders as a label of its form's length. */
  lemma FourDigitLabelLength(form: Form, s: Span)
    requires 1000 <= s.start <= 9999 && 1000 <= s.end <= 9999
    ensures FormOf(SpanLabel(form, s)) == Some(form)
  {
    FourDigitYear(s.start);
    FourDigitYear(s.end);
    assert |EndText(form, s.end)| == if form == Short then 2 else 4;
  }

  /** Whenever the form and the start year are known, the derivation succeeds with their labels. */
  lemma PreviousOf(period: string, form: Form, base: nat, count: int)
    requires FormOf(period) == Some(form) && StartYearOf(period) == Some(base)
    ensures PreviousYears(period, count) == Success(Labels(form, base, count))
  {
  }

  /**
   * For four-digit years the first preceding label is itself a well-formed
   * label of the same form, and stepping back from it `n` times gives the
   * rest of the list stepping back `n + 1` times from the original.
   */
  lemma StepBack(period: string, form: Form, base: nat, n: nat)
    requires FormOf(period) == Some(form) && StartYearOf(period) == Some(base)
    requires 1001 <= base <= 9999
    ensures PreviousYears(period, n + 1) == Success(Labels(form, base, n + 1))
    ensures FormOf(Labels(form, base, n + 1)[0]) == Some(form)
    ensures PreviousYears(Labels(form, base, n + 1)[0], n) == Success(Labels(form, base, n + 1)[1..])
  {
    PreviousOf(period, form, base, n + 1);
    var prior: nat := base - 1;
    var ys := Labels(form, base, n + 1);
    var head := SpanLabel(form, Span(prior, base));
    assert ys[0] == head;
    FirstLabel(form, prior);
    assert PreviousYears(head, n) == Success(Labels(form, prior, n)) by {
      PreviousOf(head, form, prior, n);
    }
    assert Labels(form, prior, n) == ys[1..] by {
      LabelsShift(form, base, n);
    }
  }

  /** The label of a span of four-digit years has its form and names its start year. */
  lemma FirstLabel(form: Form, prior: nat)
    requires 1000 <= prior <= 9998
    ensures FormOf(SpanLabel(form, Span(prior, prior + 1))) == Some(form)
    ensures StartYearOf(SpanLabel(form, Span(prior, prior + 1))) == Some(prior)
  {
    FourDigitLabelLength(form, Span(prior, prior + 1));
  }

  /** Dropping the first label leaves the labels that precede the year before. */
  lemma LabelsShift(form: Form, base: int, n: nat)
    ensures Labels(form, base - 1, n) == Labels(form, base, n + 1)[1..]
  {
    var zs := Labels(form, base - 1, n);
    var ys := Labels(form, base, n + 1);
    assert |zs| == |ys[1..]|;
    forall k | 0 <= k < |zs|
      ensures zs[k] == ys[1..][k]
    {
      LabelShifted(form, base, n, k);
    }
  }

  /** Label k before `base - 1` is label k + 1 before `base`. */
  lemma LabelShifted(form: Form, base: int, n: nat, k: nat)
    requires k < n
    ensures Labels(form, base - 1, n)[k] == Labels(form, base, n + 1)[1..][k]
  {
    var ys := Labels(form, base, n + 1);
    assert ys[1..][k] == ys[k + 1];
    assert Span(base - 1 - (k + 1), base - 1 - k) == Span(base - (k + 2), base - (k + 1));
  }

  /** A label that starts with the printed year and then a dash names that year. */
  lemma StartOfPrinted(period: string, year: nat, rest: string)
    requires |rest| > 0 && rest[0] == '-'
    requires period == NatToString(year) + rest
    ensures StartYearOf(period) == Some(year)
  {
    PrefixBeforeDash(NatToString(year), rest);
    ParseRendered(year);
  }

  /** With a count of two, as the report uses it: the year just before the target, then the one before that. */
  lemma TwoPrevious(period: string, form: Form, base: nat)
    requires FormOf(period) == Some(form) && StartYearOf(period) == Some(base)
    ensures PreviousYears(period, 2) == Success([SpanLabel(form, Span(base - 1, base)), SpanLabel(form, Span(base - 2, base - 1))])
  {
    PreviousOf(period, form, base, 2);
    LabelsTwo(form, base);
  }

  /** With a count of one: just the year before. */
  lemma OnePrevious(period: string, form: Form, base: nat)
    requires FormOf(period) == Some(form) && StartYearOf(period) == Some(base)
    ensures PreviousYears(period, 1) == Success([SpanLabel(form, Span(base - 1, base))])
  {
    PreviousOf(period, form, base, 1);
    LabelsOne(form, base);
  }

  lemma LabelsOne(form: Form, base: int)
    ensures Labels(form, base, 1) == [SpanLabel(form, Span(base - 1, base))]
  {
    LabelsShift(form, base, 0);
    var ys := Labels(form, base, 1);
    assert |ys| == 1;
    assert ys == [ys[0]];
  }

  lemma LabelsTwo(form: Form, base: int)
    ensures Labels(form, base, 2) == [SpanLabel(form, Span(base - 1, base)), SpanLabel(form, Span(base - 2, base - 1))]
  {
    LabelsShift(form, base, 1);
    var ys := Labels(form, base, 2);
    assert |ys| == 2;
    assert ys == [ys[0], ys[1]];
  }

  lemma ShortLabels()
    ensures SpanLabel(Short, Span(2023, 2024)) == "2023-24"
  {
    FourDigits(2023);
    FourDigits(2024);
  }

  lemma ShortLabelsEarlier()
    ensures SpanLabel(Short, Span(2022, 2023)) == "2022-23"
  {
    FourDigits(2022);
    FourDigits(2023);
  }

  /** The worked short-form case. */
  lemma ShortExample()
    ensures PreviousYears("2024-25", 2) == Success(["2023-24", "2022-23"])
  {
    StartOfPrinted("2024-25", 2024, "-25");
    TwoPrevious("2024-25", Short, 2024);
    ShortLabels();
    ShortLabelsEarlier();
  }

  lemma PaddedLabel()
    ensures SpanLabel(Short, Span(2004, 2005)) == "2004-05"
  {
    FourDigits(2004);
    FourDigits(2005);
  }

  /** The suffix of 2005 keeps its leading zero. */
  lemma PaddedExample()
    ensures PreviousYears("2005-06", 1) == Success(["2004-05"])
  {
    StartOfPrinted("2005-06", 2005, "-06");
    OnePrevious("2005-06", Short, 2005);
    PaddedLabel();
  }

  lemma LongLabels()
    ensures SpanLabel(Long, Span(2023, 2024)) == "2023-2024"
  {
    FourDigits(2023);
    FourDigits(2024);
  }

  lemma LongLabelsEarlier()
    ensures SpanLabel(Long, Span(2022, 2023)) == "2022-2023"
  {
    FourDigits(2022);
    FourDigits(2023);
  }

  /** The worked long-form case. */
  lemma LongExample()
    ensures PreviousYears("2024-2025", 2) == Success(["2023-2024", "2022-2023"])
  {
    StartOfPrinted("2024-2025", 2024, "-2025");
    TwoPrevious("2024-2025", Long, 2024);
    LongLabels();
    LongLabelsEarlier();
  }

  /** Leading zeros in the start year are read as `int()` reads them: "0000" is 0. */
  lemma ZeroStart()
    ensures StartYearOf("0000-00") == Some(0)
  {
    PrefixBeforeDash("0000", "-00");
    assert "0000-00" == "0000" + "-00";
    ParseRendered(0);
    assert NatToString(0) == "0";
    assert "00" == ['0'] + "0";
    ParseLeadingZero("0");
    assert "000" == ['0'] + "00";
    ParseLeadingZero("00");
    assert "0000" == ['0'] + "000";
    ParseLeadingZero("000");
  }

  /** Years before 1 print with their sign, and the short form keeps the sign in its two characters. */
  lemma NegativeLabels()
    ensures SpanLabel(Short, Span(-1, 0)) == "-1-0"
    ensures SpanLabel(Short, Span(-2, -1)) == "-2--1"
  {
    assert IntToString(0) == "0" by { assert NatToString(0) == "0"; }
    assert IntToString(-1) == "-1" by { assert NatToString(1) == "1"; }
    assert IntToString(-2) == "-2" by { assert NatToString(2) == "2"; }
    NegativeLabel(-1, 0, "-1", "0");
    NegativeLabel(-2, -1, "-2", "-1");
  }

  /** A short label with a negative start, from the printed start and end years. */
  lemma NegativeLabel(start: int, end: int, a: string, b: string)
    requires start < 0 && IntToString(start) == a && IntToString(end) == b && |b| <= 2
    ensures SpanLabel(Short, Span(start, end)) == a + "-" + b
  {
    assert EndText(Short, end) == b;
    assert a + ("-" + b) == a + "-" + b;
  }

  /** Start year 0 is accepted, and the years before it are negative. */
  lemma NegativeExample()
    ensures PreviousYears("0000-00", 2) == Success(["-1-0", "-2--1"])
  {
    ZeroStart();
    TwoPrevious("0000-00", Short, 0);
    NegativeLabels();
  }

  /** Malformed labels fail, each with its own error. */
  lemma FailureExamples()
    ensures PreviousYears("2024", 2) == Failure(UnknownLength)
    ensures PreviousYears("abcd-ef", 2) == Failure(ShortNotParsable)
    ensures PreviousYears("", 2) == Failure(UnknownLength)
  {
  }
}

=== FILE: layout.dfy ===
/**
 * Column layout of the report tables: the header groups of
 * `build_dynamic_headers`, the column count of `create_report`, and the two
 * loops that place the header cells and fill a data row, with their guards
 * against writing past the last column.
 */
module Layout {
  import opened Wrappers
  import FiscalYears
  import opened YieldData

  /** A column group: year label, method, and the sub-column labels (none for a single column). */
  datatype Group = Group(year: string, model: string, subs: seq<string>)

  /** The official baseline method, shown for the two preceding years. */
  const Baseline: string := "MoA&FW"

  /** The two sub-columns of a forecasting method's group. */
  const Metrics: seq<string> := ["Yield", "RMSE"]

  /**
   * `build_dynamic_headers`: one two-column group per method for the target
   * year, in the order given, then the baseline for each of the two preceding
   * years; nothing at all when the period label is rejected.
   */
  function BuildHeaders(period: string, methods: seq<string>): (gs: seq<Group>)
    ensures gs == [] <==> FiscalYears.PreviousYears(period, 2).Failure?
    ensures FiscalYears.PreviousYears(period, 2).Success? ==>
      var prev := FiscalYears.PreviousYears(period, 2).value;
      && |gs| == |methods| + 2
      && (forall i :: 0 <= i < |methods| ==> gs[i] == Group(period, methods[i], Metrics))
      && gs[|methods|] == Group(prev[0], Baseline, [])
      && gs[|methods| + 1] == Group(prev[1], Baseline, [])
  {
    var r := FiscalYears.PreviousYears(period, 2);
    if r.Failure? then [] else Assemble(period, methods, r.value[0], r.value[1])
  }

  /** With the two preceding labels known, the builder assembles the groups from them. */
  lemma HeadersFrom(period: string, methods: seq<string>, prev1: string, prev2: string)
    requires FiscalYears.PreviousYears(period, 2) == Success([prev1, prev2])
    ensures BuildHeaders(period, methods) == Assemble(period, methods, prev1, prev2)
  {
  }

  /** The groups for a target period and its two predecessors. */
  function Assemble(period: string, methods: seq<string>, prev1: string, prev2: string): (gs: seq<Group>)
    ensures |gs| == |methods| + 2
    ensures forall i :: 0 <= i < |methods| ==> gs[i] == Group(period, methods[i], Metrics)
    ensures gs[|methods|] == Group(prev1, Baseline, []) && gs[|methods| + 1] == Group(prev2, Baseline, [])
  {
    seq(|methods|, i requires 0 <= i < |methods| => Group(period, methods[i], Metrics))
      + [Group(prev1, Baseline, []), Group(prev2, Baseline, [])]
  }

  /** Columns a group occupies: one per sub-column label, or one when it has none. */
  function Width(g: Group): nat {
    if |g.subs| > 0 then |g.subs| else 1
  }

  /** The groups the builder can produce: every group one or two columns wide. */
  predicate AtMostTwoSubs(gs: seq<Group>) {
    forall i :: 0 <= i < |gs| ==> |gs[i].subs| <= 2
  }

  /** The columns of all groups: at least one each, and at most two each when no group is wider. */
  function TotalWidth(gs: seq<Group>): (w: nat)
    ensures w >= |gs|
    ensures AtMostTwoSubs(gs) ==> w <= 2 * |gs|
  {
    if |gs| == 0 then 0
    else
      assert AtMostTwoSubs(gs) ==> AtMostTwoSubs(gs[1..]) by {
        if AtMostTwoSubs(gs) {
          forall i | 0 <= i < |gs[1..]|
            ensures |gs[1..][i].subs| <= 2
          {
            assert gs[1..][i] == gs[i + 1];
          }
        }
      }
      Width(gs[0]) + TotalWidth(gs[1..])
  }

  /** `num_cols`: the State column plus the width of every group, so at least one column per group besides it. */
  function NumCols(gs: seq<Group>): (n: nat)
    ensures n >= |gs| + 1
    ensures AtMostTwoSubs(gs) ==> n <= 2 * |gs| + 1
  {
    1 + TotalWidth(gs)
  }

  lemma {:induction false} TotalWidthAppend(a: seq<Group>, b: seq<Group>)
    ensures TotalWidth(a + b) == TotalWidth(a) + TotalWidth(b)
    decreases |a|
  {
    if |a| > 0 {
      assert (a + b)[1..] == a[1..] + b;
      TotalWidthAppend(a[1..], b);
    } else {
      assert a + b == b;
    }
  }

  lemma {:induction false} MetricGroupsWidth(gs: seq<Group>)
    requires forall i :: 0 <= i < |gs| ==> gs[i].subs == Metrics
    ensures TotalWidth(gs) == 2 * |gs|
    decreases |gs|
  {
    if |gs| > 0 {
      MetricGroupsWidth(gs[1..]);
    }
  }

  /**
   * The builder's groups are one or two columns wide, and the table has the
   * State column, two per method and one per preceding year.
   */
  lemma BuiltColumns(period: string, methods: seq<string>)
    requires FiscalYears.PreviousYears(period, 2).Success?
    ensures var gs := BuildHeaders(period, methods);
      && AtMostTwoSubs(gs)
      && (forall i :: 0 <= i < |gs| ==> |gs[i].subs| == 0 || |gs[i].subs| == 2)
      && NumCols(gs) == 3 + 2 * |methods|
  {
    var prev := FiscalYears.PreviousYears(period, 2).value;
    AssembledColumns(period, methods, prev[0], prev[1]);
  }

  lemma AssembledColumns(period: string, methods: seq<string>, prev1: string, prev2: string)
    ensures var gs := Assemble(period, methods, prev1, prev2);
      && (forall i :: 0 <= i < |gs| ==> |gs[i].subs| == 0 || |gs[i].subs| == 2)
      && NumCols(gs) == 3 + 2 * |methods|
  {
    var gs := Assemble(period, methods, prev1, prev2);
    var n := |methods|;
    assert |Metrics| == 2;
    forall i | 0 <= i < |gs|
      ensures |gs[i].subs| == 0 || |gs[i].subs| == 2
    {
      if i < n {
        assert gs[i].subs == Metrics;
      }
    }
    var forecasts := gs[..n];
    assert gs == forecasts + [gs[n], gs[n + 1]];
    ForecastsThenBaselines(forecasts, gs[n], gs[n + 1]);
  }

  lemma ForecastsThenBaselines(forecasts: seq<Group>, b1: Group, b2: Group)
    requires forall i :: 0 <= i < |forecasts| ==> forecasts[i].subs == Metrics
    requires b1.subs == [] && b2.subs == []
    ensures TotalWidth(forecasts + [b1, b2]) == 2 * |forecasts| + 2
  {
    MetricGroupsWidth(forecasts);
    TotalWidthAppend(forecasts, [b1, b2]);
    assert TotalWidth([b1, b2]) == 2 by {
      assert [b1, b2][1..] == [b2];
      assert [b2][1..] == [];
      assert TotalWidth([b2]) == 1;
    }
  }

  /** `[lo, lo + 1, ..., hi - 1]`. */
  function Range(lo: nat, hi: nat): (r: seq<nat>)
    ensures |r| == if lo <= hi then hi - lo else 0
    ensures forall i :: 0 <= i < |r| ==> r[i] == lo + i
  {
    if lo < hi then seq(hi - lo, i requires 0 <= i < hi - lo => lo + i) else []
  }

  lemma RangeSplit(lo: nat, mid: nat, hi: nat)
    requires lo <= mid <= hi
    ensures Range(lo, mid) + Range(mid, hi) == Range(lo, hi)
  {
  }

  // ---------------------------------------------------------------- header

  /**
   * A placed header cell: a group title merged across the top row over its
   * sub-columns, whose labels fill the second row; or a title merged down
   * both rows of one column.
   */
  datatype HeaderCell = Spanning(col: nat, title: string, subs: seq<string>) | Tall(col: nat, title: string)

  /** The header cells placed and the `col_index` the loop ends with. */
  datatype HeaderPass = HeaderPass(cells: seq<HeaderCell>, next: nat)

  /**
   * The cell a group gets: a group of several sub-columns spans them under
   * the title `f"{year} {model}"` with its sub-column labels below; any other
   * group gets one two-row cell titled `f"{year}\n{model}"`.
   */
  predicate Titles(h: HeaderCell, g: Group) {
    if |g.subs| > 1 then h.Spanning? && h.title == g.year + " " + g.model && h.subs == g.subs
    else h.Tall? && h.title == g.year + "\n" + g.model
  }

  /** The cell a group gets when placed at column `col`. */
  function CellFor(g: Group, col: nat): (h: HeaderCell)
    ensures h.col == col && Titles(h, g)
  {
    if |g.subs| > 1 then Spanning(col, g.year + " " + g.model, g.subs)
    else Tall(col, g.year + "\n" + g.model)
  }

  /**
   * The header loop of `create_report` as written, including both skip
   * guards. The guards keep every placed cell, merged span included, inside
   * the table: at most one cell per group, each within `col .. num_cols - 1`,
   * and the column index never runs past `num_cols` once it starts inside.
   */
  function PlaceHeaders(gs: seq<Group>, numCols: int, col: nat): (p: HeaderPass)
    ensures |p.cells| <= |gs|
    ensures col <= p.next && (col <= numCols ==> p.next <= numCols)
    ensures forall i, j :: 0 <= i < |p.cells| && 0 <= j < |CellColumns(p.cells[i])| ==>
      col <= CellColumns(p.cells[i])[j] < numCols
    decreases |gs|
  {
    if |gs| == 0 then HeaderPass([], col)
    else
      var g := gs[0];
      if |g.subs| > 1 then
        if col + |g.subs| - 1 >= numCols then PlaceHeaders(gs[1..], numCols, col)
        else
          var rest := PlaceHeaders(gs[1..], numCols, col + |g.subs|);
          HeaderPass([CellFor(g, col)] + rest.cells, rest.next)
      else if col >= numCols then PlaceHeaders(gs[1..], numCols, col)
      else
        var rest := PlaceHeaders(gs[1..], numCols, col + 1);
        HeaderPass([CellFor(g, col)] + rest.cells, rest.next)
  }

  /** The intended header: each group placed right after the previous one, no guards. */
  function Laid(gs: seq<Group>, col: nat): (cells: seq<HeaderCell>)
    ensures |cells| == |gs|
    decreases |gs|
  {
    if |gs| == 0 then [] else [CellFor(gs[0], col)] + Laid(gs[1..], col + Width(gs[0]))
  }

  /** Each intended cell carries its own group's title and sub-column labels. */
  lemma {:induction false} LaidTitles(gs: seq<Group>, col: nat)
    ensures forall i :: 0 <= i < |gs| ==> Titles(Laid(gs, col)[i], gs[i])
    decreases |gs|
  {
    if |gs| > 0 {
      var cells := Laid(gs, col);
      var rest := Laid(gs[1..], col + Width(gs[0]));
      assert cells[1..] == rest;
      LaidTitles(gs[1..], col + Width(gs[0]));
      forall i | 0 < i < |gs|
        ensures Titles(cells[i], gs[i])
      {
        assert cells[i] == rest[i - 1] && gs[i] == gs[1..][i - 1];
      }
    }
  }

  /** The cell carries the title of group `from` of `gs` or of a later one. */
  predicate TitledBy(h: HeaderCell, gs: seq<Group>, from: nat) {
    exists j :: from <= j < |gs| && Titles(h, gs[j])
  }

  /** A title found among the later groups is found among all of them, one index on. */
  lemma TitledByTail(h: HeaderCell, gs: seq<Group>, from: nat)
    requires |gs| > 0 && TitledBy(h, gs[1..], from)
    ensures TitledBy(h, gs, from + 1) && TitledBy(h, gs, from)
  {
    var j :| from <= j < |gs[1..]| && Titles(h, gs[1..][j]);
    assert gs[1..][j] == gs[j + 1];
  }

  /**
   * Whatever the guards skip, each placed cell carries the title and
   * sub-column labels of a group, and cell i comes from group i or a later
   * one.
   */
  lemma {:induction false} PlacedTitles(gs: seq<Group>, numCols: int, col: nat)
    ensures forall i :: 0 <= i < |PlaceHeaders(gs, numCols, col).cells| ==>
      TitledBy(PlaceHeaders(gs, numCols, col).cells[i], gs, i)
    decreases |gs|
  {
    if |gs| > 0 {
      var g := gs[0];
      var p := PlaceHeaders(gs, numCols, col);
      if (|g.subs| > 1 && col + |g.subs| - 1 >= numCols) || (|g.subs| <= 1 && col >= numCols) {
        var rest := PlaceHeaders(gs[1..], numCols, col);
        assert p == rest;
        PlacedTitles(gs[1..], numCols, col);
        forall i | 0 <= i < |p.cells|
          ensures TitledBy(p.cells[i], gs, i)
        {
          TitledByTail(rest.cells[i], gs, i);
        }
      } else {
        var next := if |g.subs| > 1 then col + |g.subs| else col + 1;
        var rest := PlaceHeaders(gs[1..], numCols, next);
        assert p.cells == [CellFor(g, col)] + rest.cells;
        PlacedTitles(gs[1..], numCols, next);
        forall i | 0 <= i < |p.cells|
          ensures TitledBy(p.cells[i], gs, i)
        {
          if i == 0 {
            assert Titles(p.cells[0], gs[0]);
          } else {
            assert p.cells[i] == rest.cells[i - 1];
            TitledByTail(rest.cells[i - 1], gs, i - 1);
          }
        }
      }
    } else {
      assert PlaceHeaders(gs, numCols, col).cells == [];
    }
  }

  /** The grid columns a header cell covers. */
  function CellColumns(c: HeaderCell): seq<nat> {
    match c
    case Spanning(col, _, subs) => Range(col, col + |subs|)
    case Tall(col, _) => [col]
  }

  function Covered(cells: seq<HeaderCell>): seq<nat> {
    if |cells| == 0 then [] else CellColumns(cells[0]) + Covered(cells[1..])
  }

  lemma {:induction false} CoveredAppend(a: seq<HeaderCell>, b: seq<HeaderCell>)
    ensures Covered(a + b) == Covered(a) + Covered(b)
    decreases |a|
  {
    if |a| > 0 {
      assert (a + b)[1..] == a[1..] + b;
      CoveredAppend(a[1..], b);
    } else {
      assert a + b == b;
    }
  }

  /**
   * When there is room for every group, neither header guard fires: the loop
   * places every group exactly where the intended layout does and ends just
   * past the last group.
   */
  lemma {:induction false} HeaderGuardsNeverFire(gs: seq<Group>, numCols: int, col: nat)
    requires col + TotalWidth(gs) <= numCols
    ensures PlaceHeaders(gs, numCols, col) == HeaderPass(Laid(gs, col), col + TotalWidth(gs))
    decreases |gs|
  {
    if |gs| > 0 {
      HeaderGuardsNeverFire(gs[1..], numCols, col + Width(gs[0]));
    }
  }

  /** The intended header covers each column of its span once, left to right. */
  lemma {:induction false} LaidCoversColumns(gs: seq<Group>, col: nat)
    ensures Covered(Laid(gs, col)) == Range(col, col + TotalWidth(gs))
    decreases |gs|
  {
    if |gs| > 0 {
      var w := Width(gs[0]);
      var cells := Laid(gs, col);
      var rest := Laid(gs[1..], col + w);
      assert Covered(cells) == CellColumns(cells[0]) + Covered(rest) by {
        assert cells[1..] == rest;
      }
      assert CellColumns(cells[0]) == Range(col, col + w) by {
        CellCovers(gs[0], col);
      }
      assert Covered(rest) == Range(col + w, col + TotalWidth(gs)) by {
        LaidCoversColumns(gs[1..], col + w);
      }
      RangeSplit(col, col + w, col + TotalWidth(gs));
    } else {
      assert Laid(gs, col) == [];
    }
  }

  /** A placed group's cell covers exactly the columns the group occupies. */
  lemma CellCovers(g: Group, col: nat)
    ensures CellColumns(CellFor(g, col)) == Range(col, col + Width(g))
  {
  }

  /**
   * The header of a table: "State" merged down column 0, then the groups
   * from column 1. With `num_cols` derived from the groups, its cells cover
   * columns `0 .. num_cols - 1` once each, in order, and the loop ends with
   * `col_index == num_cols`.
   */
  lemma HeaderFillsTable(gs: seq<Group>)
    ensures var p := PlaceHeaders(gs, NumCols(gs), 1);
      && p.next == NumCols(gs)
      && |p.cells| == |gs|
      && (forall i :: 0 <= i < |gs| ==> Titles(p.cells[i], gs[i]))
      && Covered([Tall(0, "State")] + p.cells) == Range(0, NumCols(gs))
  {
    var cells := Laid(gs, 1);
    var p := PlaceHeaders(gs, NumCols(gs), 1);
    assert p.cells == cells && p.next == NumCols(gs) by {
      HeaderIsLaid(gs);
    }
    LaidTitles(gs, 1);
    LaidCoversColumns(gs, 1);
    StateColumnFirst(cells, NumCols(gs));
  }

  /** With `num_cols` derived from the groups, the header loop lays every group. */
  lemma HeaderIsLaid(gs: seq<Group>)
    ensures PlaceHeaders(gs, NumCols(gs), 1) == HeaderPass(Laid(gs, 1), NumCols(gs))
  {
    HeaderGuardsNeverFire(gs, NumCols(gs), 1);
  }

  /** "State" in column 0 followed by cells covering `1 .. n - 1` covers `0 .. n - 1`. */
  lemma StateColumnFirst(cells: seq<HeaderCell>, n: nat)
    requires 1 <= n && Covered(cells) == Range(1, n)
    ensures Covered([Tall(0, "State")] + cells) == Range(0, n)
  {
    assert ([Tall(0, "State")] + cells)[1..] == cells;
    RangeSplit(0, 1, n);
  }

  // ---------------------------------------------------------------- data rows

  /** What a cell shows: text, a value, or nothing. */
  datatype Content<V> = Text(s: string) | Datum(v: V) | Blank

  /** One `set_cell_text` call on a data row. */
  datatype Write<V> = Write(col: nat, content: Content<V>)

  /** `str(text) if text is not None else ""`: a missing value shows as a blank cell. */
  function Show<V>(o: Option<V>): (c: Content<V>)
    ensures c == Blank <==> o.None?
    ensures o.Some? ==> c == Datum(o.value)
  {
    match o
    case None => Blank
    case Some(v) => Datum(v)
  }

  /**
   * The data-row loop of `create_report` as written: the `(None, None)`
   * default for a missing entry and both skip guards, including the
   * two-column guard `c + 1 <= num_cols`. That guard bounds the writes by
   * `num_cols` itself, one past the last column: where the source's
   * `row[c + 1]` raises IndexError, this loop records the write to column
   * `num_cols` instead (`RowGuardOffByOne`).
   */
  function FillCells<V>(gs: seq<Group>, numCols: int, c: nat, data: Lookup<V>, crop: string, state: string): (ws: seq<Write<V>>)
    ensures forall i :: 0 <= i < |ws| ==> c <= ws[i].col <= numCols
    decreases |gs|
  {
    if |gs| == 0 then []
    else
      var g := gs[0];
      var val := Find(data, crop, state, g.year, g.model);
      if |g.subs| > 1 then
        if c + 1 <= numCols then
          [Write(c, Show(val.yieldValue)), Write(c + 1, Show(val.rmse))] + FillCells(gs[1..], numCols, c + 2, data, crop, state)
        else FillCells(gs[1..], numCols, c, data, crop, state)
      else if c < numCols then
        [Write(c, Show(val.yieldValue))] + FillCells(gs[1..], numCols, c + 1, data, crop, state)
      else FillCells(gs[1..], numCols, c, data, crop, state)
  }

  /**
   * The data-row loop with the two-column guard corrected to `c + 1 < num_cols`,
   * the bound the write at `row[c + 1]` needs: every cell it writes lies
   * inside the row, whatever the groups and the column count.
   */
  function FillChecked<V>(gs: seq<Group>, numCols: int, c: nat, data: Lookup<V>, crop: string, state: string): (ws: seq<Write<V>>)
    ensures forall i :: 0 <= i < |ws| ==> c <= ws[i].col < numCols
    decreases |gs|
  {
    if |gs| == 0 then []
    else
      var g := gs[0];
      var val := Find(data, crop, state, g.year, g.model);
      if |g.subs| > 1 then
        if c + 1 < numCols then
          [Write(c, Show(val.yieldValue)), Write(c + 1, Show(val.rmse))] + FillChecked(gs[1..], numCols, c + 2, data, crop, state)
        else FillChecked(gs[1..], numCols, c, data, crop, state)
      else if c < numCols then
        [Write(c, Show(val.yieldValue))] + FillChecked(gs[1..], numCols, c + 1, data, crop, state)
      else FillChecked(gs[1..], numCols, c, data, crop, state)
  }

  /**
   * The cells one group writes at column `c`: yield then RMSE for a
   * multi-column group, the yield alone for a single-column group.
   */
  function GroupWrites<V>(g: Group, c: nat, val: Pair<V>): seq<Write<V>> {
    if |g.subs| > 1 then [Write(c, Show(val.yieldValue)), Write(c + 1, Show(val.rmse))]
    else [Write(c, Show(val.yieldValue))]
  }

  /** How many cells a group writes on a data row: two when it has several sub-columns, else one. */
  function CellsWritten(g: Group): nat {
    if |g.subs| > 1 then 2 else 1
  }

  /** The intended row: every group's cells, one group after another, no guards. */
  function Filled<V>(gs: seq<Group>, c: nat, data: Lookup<V>, crop: string, state: string): seq<Write<V>>
    decreases |gs|
  {
    if |gs| == 0 then []
    else
      GroupWrites(gs[0], c, Find(data, crop, state, gs[0].year, gs[0].model))
      + Filled(gs[1..], c + CellsWritten(gs[0]), data, crop, state)
  }

  function Columns<V>(ws: seq<Write<V>>): (cols: seq<nat>)
    ensures |cols| == |ws|
    ensures forall i :: 0 <= i < |ws| ==> cols[i] == ws[i].col
  {
    seq(|ws|, i requires 0 <= i < |ws| => ws[i].col)
  }

  /**
   * When there is room for every group, neither data-row guard fires and the
   * loop writes exactly the intended row. No group writes more than two
   * cells, so this holds whatever the groups' widths.
   */
  lemma {:induction false} RowGuardsNeverFire<V>(gs: seq<Group>, numCols: int, c: nat, data: Lookup<V>, crop: string, state: string)
    requires c + TotalWidth(gs) <= numCols
    ensures FillCells(gs, numCols, c, data, crop, state) == Filled(gs, c, data, crop, state)
    decreases |gs|
  {
    if |gs| > 0 {
      FillCellsStep(gs, numCols, c, data, crop, state);
      RowGuardsNeverFire(gs[1..], numCols, c + CellsWritten(gs[0]), data, crop, state);
    } else {
      assert FillCells(gs, numCols, c, data, crop, state) == [];
    }
  }

  /** One iteration of the as-written row loop, when the first group fits. */
  lemma FillCellsStep<V>(gs: seq<Group>, numCols: int, c: nat, data: Lookup<V>, crop: string, state: string)
    requires |gs| > 0 && c + TotalWidth(gs) <= numCols
    ensures var head := GroupWrites(gs[0], c, Find(data, crop, state, gs[0].year, gs[0].model));
      && FillCells(gs, numCols, c, data, crop, state) == head + FillCells(gs[1..], numCols, c + CellsWritten(gs[0]), data, crop, state)
      && Filled(gs, c, data, crop, state) == head + Filled(gs[1..], c + CellsWritten(gs[0]), data, crop, state)
      && c + CellsWritten(gs[0]) + TotalWidth(gs[1..]) <= numCols
  {
  }

  /** The corrected loop agrees with the intended row whenever there is room for every group. */
  lemma {:induction false} CheckedGuardsNeverFire<V>(gs: seq<Group>, numCols: int, c: nat, data: Lookup<V>, crop: string, state: string)
    requires c + TotalWidth(gs) <= numCols
    ensures FillChecked(gs, numCols, c, data, crop, state) == Filled(gs, c, data, crop, state)
    decreases |gs|
  {
    if |gs| > 0 {
      FillCheckedStep(gs, numCols, c, data, crop, state);
      CheckedGuardsNeverFire(gs[1..], numCols, c + CellsWritten(gs[0]), data, crop, state);
    } else {
      assert FillChecked(gs, numCols, c, data, crop, state) == [];
    }
  }

  /** One iteration of the corrected row loop, when the first group fits. */
  lemma FillCheckedStep<V>(gs: seq<Group>, numCols: int, c: nat, data: Lookup<V>, crop: string, state: string)
    requires |gs| > 0 && c + TotalWidth(gs) <= numCols
    ensures var head := GroupWrites(gs[0], c, Find(data, crop, state, gs[0].year, gs[0].model));
      && FillChecked(gs, numCols, c, data, crop, state) == head + FillChecked(gs[1..], numCols, c + CellsWritten(gs[0]), data, crop, state)
      && Filled(gs, c, data, crop, state) == head + Filled(gs[1..], c + CellsWritten(gs[0]), data, crop, state)
      && c + CellsWritten(gs[0]) + TotalWidth(gs[1..]) <= numCols
  {
  }

  /**
   * With `num_cols` derived from the groups, as `create_report` derives it,
   * the loop as written and the corrected loop write the same cells: the
   * off-by-one guard is never reached.
   */
  lemma GuardsAgree<V>(gs: seq<Group>, data: Lookup<V>, crop: string, state: string)
    ensures FillCells(gs, NumCols(gs), 1, data, crop, state) == FillChecked(gs, NumCols(gs), 1, data, crop, state)
  {
    RowGuardsNeverFire(gs, NumCols(gs), 1, data, crop, state);
    CheckedGuardsNeverFire(gs, NumCols(gs), 1, data, crop, state);
  }

  /**
   * As written, the two-column guard lets a group through with only one
   * column left: on a two-column row it writes column 2, past the last
   * column, where the list indexing `row[c + 1]` fails. The corrected guard
   * skips the group instead.
   */
  lemma RowGuardOffByOne<V>(data: Lookup<V>)
    ensures var gs := [Group("2024-25", "M", Metrics)];
      && Columns(FillCells(gs, 2, 1, data, "crop", "state")) == [1, 2]
      && FillChecked(gs, 2, 1, data, "crop", "state") == []
  {
  }

  /** For groups at most two columns wide, the intended row writes each column of its span once, left to right. */
  lemma {:induction false} FilledWritesEachColumnOnce<V>(gs: seq<Group>, c: nat, data: Lookup<V>, crop: string, state: string)
    requires AtMostTwoSubs(gs)
    ensures Columns(Filled(gs, c, data, crop, state)) == Range(c, c + TotalWidth(gs))
    decreases |gs|
  {
    if |gs| > 0 {
      var w := Width(gs[0]);
      var head := GroupWrites(gs[0], c, Find(data, crop, state, gs[0].year, gs[0].model));
      var tail := Filled(gs[1..], c + w, data, crop, state);
      FilledStep(gs, c, data, crop, state);
      FilledWritesEachColumnOnce(gs[1..], c + w, data, crop, state);
      ColumnsJoin(head, tail, c, c + w, c + TotalWidth(gs));
    }
  }

  /** Writes covering two adjacent column ranges, one after the other, cover their union. */
  lemma ColumnsJoin<V>(head: seq<Write<V>>, tail: seq<Write<V>>, lo: nat, mid: nat, hi: nat)
    requires lo <= mid <= hi
    requires Columns(head) == Range(lo, mid) && Columns(tail) == Range(mid, hi)
    ensures Columns(head + tail) == Range(lo, hi)
  {
    ColumnsAppend(head, tail);
    RangeSplit(lo, mid, hi);
  }

  /**
   * One group of the intended row, for groups at most two wide: its cells
   * come first and cover its own columns, the rest follow from just past
   * them, and the rest are again at most two wide.
   */
  lemma FilledStep<V>(gs: seq<Group>, c: nat, data: Lookup<V>, crop: string, state: string)
    requires |gs| > 0 && AtMostTwoSubs(gs)
    ensures var head := GroupWrites(gs[0], c, Find(data, crop, state, gs[0].year, gs[0].model));
      && Filled(gs, c, data, crop, state) == head + Filled(gs[1..], c + Width(gs[0]), data, crop, state)
      && Columns(head) == Range(c, c + Width(gs[0]))
      && TotalWidth(gs) == Width(gs[0]) + TotalWidth(gs[1..])
      && AtMostTwoSubs(gs[1..])
  {
    assert |gs[0].subs| <= 2;
    GroupColumns(gs[0], c, Find(data, crop, state, gs[0].year, gs[0].model));
    AtMostTwoTail(gs);
  }

  lemma AtMostTwoTail(gs: seq<Group>)
    requires |gs| > 0 && AtMostTwoSubs(gs)
    ensures AtMostTwoSubs(gs[1..])
  {
    forall i | 0 <= i < |gs[1..]|
      ensures |gs[1..][i].subs| <= 2
    {
      assert gs[1..][i] == gs[i + 1];
    }
  }

  /** A group at most two wide writes exactly the columns it occupies. */
  lemma GroupColumns<V>(g: Group, c: nat, val: Pair<V>)
    requires |g.subs| <= 2
    ensures Columns(GroupWrites(g, c, val)) == Range(c, c + Width(g))
  {
  }

  lemma ColumnsAppend<V>(a: seq<Write<V>>, b: seq<Write<V>>)
    ensures Columns(a + b) == Columns(a) + Columns(b)
  {
  }

  /**
   * A data row: the state name in column 0, then the groups from column 1.
   * With `num_cols` derived from groups at most two columns wide, the row
   * writes columns `0 .. num_cols - 1` once each, in order.
   */
  lemma RowFillsTable<V>(gs: seq<Group>, data: Lookup<V>, crop: string, state: string)
    requires AtMostTwoSubs(gs)
    ensures var ws := [Write(0, Text(state))] + FillChecked(gs, NumCols(gs), 1, data, crop, state);
      Columns(ws) == Range(0, NumCols(gs))
  {
    CheckedGuardsNeverFire(gs, NumCols(gs), 1, data, crop, state);
    FilledWritesEachColumnOnce(gs, 1, data, crop, state);
    var ws := FillChecked(gs, NumCols(gs), 1, data, crop, state);
    var first: Write<V> := Write(0, Text(state));
    assert Columns([first] + ws) == [0] + Columns(ws);
    RangeSplit(0, 1, NumCols(gs));
  }

  /**
   * What a group's cells show: a missing `(year, method)` entry shows blank
   * in every cell; otherwise the yield, and for a multi-column group the
   * RMSE after it, each blank exactly when that half is `None`.
   */
  lemma GroupShows<V>(g: Group, c: nat, data: Lookup<V>, crop: string, state: string)
    ensures var ws := GroupWrites(g, c, Find(data, crop, state, g.year, g.model));
      var k := Key(crop, state, g.year, g.model);
      && (k !in data ==> forall i :: 0 <= i < |ws| ==> ws[i].content == Blank)
      && (k in data ==> ws[0].content == Show(data[k].yieldValue))
      && (k in data && |g.subs| > 1 ==> |ws| == 2 && ws[1].content == Show(data[k].rmse))
      && (|g.subs| <= 1 ==> |ws| == 1)
  {
  }

  /**
   * A group with three sub-columns shows why the exactly-once property needs
   * groups at most two wide: the header reserves three columns but the row
   * writes only two, leaving the last column unwritten.
   */
  lemma WideGroupLeavesGap<V>(data: Lookup<V>)
    ensures var gs := [Group("2024-25", "M", ["Yield", "RMSE", "Extra"])];
      && NumCols(gs) == 4
      && Columns(FillChecked(gs, NumCols(gs), 1, data, "crop", "state")) == [1, 2]
  {
  }
}

=== FILE: ordering.dfy ===
/**
 * Python's ordering of strings (code point by code point, a proper prefix
 * first) and `sorted()` of a set of strings.
 */
module Ordering {

  /** `a < b` on Python strings: strict, and a proper prefix comes first. */
  predicate Below(a: string, b: string)
    ensures Below(a, b) ==> a != b
    ensures |a| < |b| && a == b[..|a|] ==> Below(a, b)
    decreases |a|
  {
    if |a| == 0 then |b| > 0
    else if |b| == 0 then false
    else if a[0] != b[0] then a[0] < b[0]
    else Below(a[1..], b[1..])
  }

  lemma {:induction false} BelowTransitive(a: string, b: string, c: string)
    requires Below(a, b) && Below(b, c)
    ensures Below(a, c)
    decreases |a|
  {
    if |a| > 0 && a[0] == b[0] && b[0] == c[0] {
      BelowTransitive(a[1..], b[1..], c[1..]);
    }
  }

  lemma {:induction false} BelowTotal(a: string, b: string)
    requires a != b
    ensures Below(a, b) || Below(b, a)
    decreases |a|
  {
    if |a| > 0 && |b| > 0 && a[0] == b[0] {
      assert a == [a[0]] + a[1..] && b == [b[0]] + b[1..];
      BelowTotal(a[1..], b[1..]);
    }
  }

  lemma BelowAsymmetric(a: string, b: string)
    ensures !(Below(a, b) && Below(b, a))
  {
    if Below(a, b) && Below(b, a) {
      BelowTransitive(a, b, a);
    }
  }

  predicate StrictlySorted(r: seq<string>) {
    forall i, j :: 0 <= i < j < |r| ==> Below(r[i], r[j])
  }

  /** `x` is the smallest member of `s`. */
  predicate IsLeast(x: string, s: set<string>) {
    x in s && forall y :: y in s && y != x ==> Below(x, y)
  }

  lemma {:induction false} LeastExists(s: set<string>)
    requires s != {}
    ensures exists x :: IsLeast(x, s)
    decreases s
  {
    var y :| y in s;
    if s != {y} {
      LeastExists(s - {y});
      var z :| IsLeast(z, s - {y});
      if Below(y, z) {
        forall w | w in s && w != y
          ensures Below(y, w)
        {
          if w != z {
            BelowTransitive(y, z, w);
          }
        }
        assert IsLeast(y, s);
      } else {
        BelowTotal(y, z);
        assert IsLeast(z, s);
      }
    } else {
      assert IsLeast(y, s);
    }
  }

  lemma LeastUnique(s: set<string>)
    ensures forall x, y :: IsLeast(x, s) && IsLeast(y, s) ==> x == y
  {
    forall x, y | IsLeast(x, s) && IsLeast(y, s)
      ensures x == y
    {
      BelowAsymmetric(x, y);
    }
  }

  /** `sorted(s)`: the members of `s` in ascending order, each once. */
  function SortedListing(s: set<string>): (r: seq<string>)
    ensures StrictlySorted(r)
    ensures forall x :: x in r <==> x in s
    ensures |r| == |s|
    decreases s
  {
    if s == {} then []
    else
      LeastExists(s);
      LeastUnique(s);
      var m :| IsLeast(m, s);
      [m] + SortedListing(s - {m})
  }

  /** There is only one ascending listing of a set, so `sorted` is determined by its members. */
  lemma {:induction false} ListingUnique(r1: seq<string>, r2: seq<string>)
    requires StrictlySorted(r1) && StrictlySorted(r2)
    requires forall x :: x in r1 <==> x in r2
    ensures r1 == r2
    decreases |r1|
  {
    assert |r1| > 0 ==> r1[0] in r2;
    assert |r2| > 0 ==> r2[0] in r1;
    if |r1| > 0 && |r2| > 0 {
      if r1[0] != r2[0] {
        var i :| 0 <= i < |r1| && r1[i] == r2[0];
        var j :| 0 <= j < |r2| && r2[j] == r1[0];
        assert Below(r1[0], r2[0]);
        assert Below(r2[0], r1[0]);
        BelowAsymmetric(r1[0], r2[0]);
      }
      forall x
        ensures x in r1[1..] <==> x in r2[1..]
      {
        if x in r1[1..] {
          var i :| 1 <= i < |r1| && r1[i] == x;
          assert Below(r1[0], x);
          assert x in r1;
          assert x in r2;
          var j :| 0 <= j < |r2| && r2[j] == x;
          assert j != 0;
          assert r2[1..][j - 1] == x;
        }
        if x in r2[1..] {
          var i :| 1 <= i < |r2| && r2[i] == x;
          assert Below(r2[0], x);
          assert x in r2;
          assert x in r1;
          var j :| 0 <= j < |r1| && r1[j] == x;
          assert j != 0;
          assert r1[1..][j - 1] == x;
        }
      }
      ListingUnique(r1[1..], r2[1..]);
      assert r1 == [r1[0]] + r1[1..];
      assert r2 == [r2[0]] + r2[1..];
    }
  }
}

=== FILE: report.dfy ===
/**
 * `create_report` without the document library: the abort checks, one table
 * per crop in sorted order with its states in sorted order, and a page break
 * after every crop but the last.
 */
module Report {
  import FiscalYears
  import opened Ordering
  import opened YieldData
  import opened Layout

  /** One crop's table: its header cells and, per state, the cells written on that state's row. */
  datatype Table<V> = Table(crop: string, header: seq<HeaderCell>, rows: seq<seq<Write<V>>>)

  /** What the document receives, in order. */
  datatype Block<V> = CropTable(table: Table<V>) | PageBreak

  /** Why no document is produced. */
  datatype Abort = NoData | NoHeaders

  datatype Outcome<V> = Aborted(reason: Abort) | Written(blocks: seq<Block<V>>)

  /**
   * The two header rows: "State" merged down column 0, then at most one
   * cell per group, each covering only columns `1 .. num_cols - 1`.
   */
  function HeaderOf(gs: seq<Group>, numCols: int): (h: seq<HeaderCell>)
    ensures 0 < |h| <= |gs| + 1 && h[0] == Tall(0, "State")
    ensures forall i, j :: 1 <= i < |h| && 0 <= j < |CellColumns(h[i])| ==> 1 <= CellColumns(h[i])[j] < numCols
  {
    var cells := PlaceHeaders(gs, numCols, 1).cells;
    assert forall i :: 1 <= i < |cells| + 1 ==> ([Tall(0, "State")] + cells)[i] == cells[i - 1];
    [Tall(0, "State")] + cells
  }

  /**
   * One data row: the state name in column 0, then the group cells, with
   * the two-column guard corrected, so every cell lies inside the row.
   */
  function RowOf<V>(gs: seq<Group>, numCols: int, data: Lookup<V>, crop: string, state: string): (ws: seq<Write<V>>)
    ensures 0 < |ws| && ws[0] == Write(0, Text(state))
    ensures forall i :: 1 <= i < |ws| ==> 1 <= ws[i].col < numCols
  {
    var cells := FillChecked(gs, numCols, 1, data, crop, state);
    assert forall i :: 1 <= i < |cells| + 1 ==> ([Write(0, Text(state))] + cells)[i] == cells[i - 1];
    [Write(0, Text(state))] + cells
  }

  /**
   * The table of one crop: one row per state of the crop, each row opening
   * with its state's name in column 0, the rows in ascending state order.
   */
  function MakeTable<V>(data: Lookup<V>, gs: seq<Group>, numCols: int, crop: string): (t: Table<V>)
    ensures t.crop == crop
    ensures |t.rows| == |StatesOf(data, crop)|
    ensures forall k :: 0 <= k < |t.rows| ==>
      |t.rows[k]| > 0 && t.rows[k][0].col == 0 && t.rows[k][0].content.Text? && t.rows[k][0].content.s in StatesOf(data, crop)
    ensures forall j, k :: 0 <= j < k < |t.rows| ==> Below(t.rows[j][0].content.s, t.rows[k][0].content.s)
    ensures t.header == HeaderOf(gs, numCols)
    ensures forall k :: 0 <= k < |t.rows| ==> t.rows[k] == RowOf(gs, numCols, data, crop, t.rows[k][0].content.s)
  {
    var states := SortedListing(StatesOf(data, crop));
    Table(crop, HeaderOf(gs, numCols), seq(|states|, k requires 0 <= k < |states| => RowOf(gs, numCols, data, crop, states[k])))
  }

  /**
   * The crop loop from index `i`: a crop without states is skipped, and a
   * page break follows each table whose index is not the last.
   */
  function RenderCrops<V>(data: Lookup<V>, gs: seq<Group>, numCols: int, crops: seq<string>, i: nat): (bs: seq<Block<V>>)
    ensures forall k :: 0 <= k < |bs| && bs[k].CropTable? ==> bs[k].table.crop in crops && StatesOf(data, bs[k].table.crop) != {}
    ensures forall k :: 0 <= k < |bs| && bs[k].PageBreak? ==> 0 < k && bs[k - 1].CropTable?
    ensures i <= |crops| ==> |bs| <= 2 * (|crops| - i)
    decreases |crops| - i
  {
    if i >= |crops| then []
    else if StatesOf(data, crops[i]) == {} then RenderCrops(data, gs, numCols, crops, i + 1)
    else
      var t := MakeTable(data, gs, numCols, crops[i]);
      var head: seq<Block<V>> := if i < |crops| - 1 then [CropTable(t), PageBreak] else [CropTable(t)];
      var rest := RenderCrops(data, gs, numCols, crops, i + 1);
      BlocksJoin(data, crops, head, rest);
      head + rest
  }

  /** Blocks that each keep the crop loop's placement rules still keep them side by side. */
  lemma BlocksJoin<V>(data: Lookup<V>, crops: seq<string>, head: seq<Block<V>>, rest: seq<Block<V>>)
    requires |head| > 0 && head[0].CropTable?
    requires forall k :: 0 <= k < |head| && head[k].CropTable? ==> head[k].table.crop in crops && StatesOf(data, head[k].table.crop) != {}
    requires forall k :: 0 <= k < |head| && head[k].PageBreak? ==> 0 < k && head[k - 1].CropTable?
    requires forall k :: 0 <= k < |rest| && rest[k].CropTable? ==> rest[k].table.crop in crops && StatesOf(data, rest[k].table.crop) != {}
    requires forall k :: 0 <= k < |rest| && rest[k].PageBreak? ==> 0 < k && rest[k - 1].CropTable?
    ensures var bs := head + rest;
      && (forall k :: 0 <= k < |bs| && bs[k].CropTable? ==> bs[k].table.crop in crops && StatesOf(data, bs[k].table.crop) != {})
      && (forall k :: 0 <= k < |bs| && bs[k].PageBreak? ==> 0 < k && bs[k - 1].CropTable?)
  {
    var bs := head + rest;
    forall k | 0 <= k < |bs| && bs[k].PageBreak?
      ensures 0 < k && bs[k - 1].CropTable?
    {
      if k >= |head| {
        assert bs[k] == rest[k - |head|];
      }
    }
  }

  /**
   * `create_report` over a store reply: abort when there is no data or no
   * header; otherwise the tables of every crop in sorted order.
   */
  function CreateReport<V>(period: string, reply: StoreReply<V>): (o: Outcome<V>)
    ensures o.Aborted? ==> o.reason == NoData
    ensures o.Written? ==> FiscalYears.PreviousYears(period, 2).Success? && reply.Answered? && |reply.rows| > 0
    ensures o.Written? ==> forall k :: 0 <= k < |o.blocks| && o.blocks[k].CropTable? ==>
      o.blocks[k].table.crop in CropsOf(Reshape(reply.rows))
  {
    var fetched := FetchData(period, reply);
    if fetched.data == map[] then Aborted(NoData)
    else
      var gs := BuildHeaders(period, fetched.methods);
      if gs == [] then Aborted(NoHeaders)
      else Written(RenderCrops(fetched.data, gs, NumCols(gs), SortedListing(CropsOf(fetched.data)), 0))
  }

  /** Tables separated by page breaks, none after the last. */
  function Separated<V>(ts: seq<Table<V>>): seq<Block<V>>
    decreases |ts|
  {
    if |ts| == 0 then []
    else if |ts| == 1 then [CropTable(ts[0])]
    else [CropTable(ts[0]), PageBreak] + Separated(ts[1..])
  }

  /** Table k sits at position 2k, a page break between each two tables, nothing else. */
  lemma {:induction false} SeparatedShape<V>(ts: seq<Table<V>>)
    requires |ts| > 0
    ensures var bs := Separated(ts);
      && |bs| == 2 * |ts| - 1
      && (forall k :: 0 <= k < |ts| ==> bs[2 * k] == CropTable(ts[k]))
      && (forall k :: 0 <= k < |ts| - 1 ==> bs[2 * k + 1] == PageBreak)
    decreases |ts|
  {
    if |ts| > 1 {
      SeparatedShape(ts[1..]);
      var bs := Separated(ts);
      var rest := Separated(ts[1..]);
      assert bs == [CropTable(ts[0]), PageBreak] + rest;
      forall k | 1 <= k < |ts|
        ensures bs[2 * k] == CropTable(ts[k])
      {
        assert bs[2 * k] == rest[2 * (k - 1)];
      }
      forall k | 1 <= k < |ts| - 1
        ensures bs[2 * k + 1] == PageBreak
      {
        assert bs[2 * k + 1] == rest[2 * (k - 1) + 1];
      }
    }
  }

  /** The tables of the crops from index `i` on. */
  function TablesFrom<V>(data: Lookup<V>, gs: seq<Group>, numCols: int, crops: seq<string>, i: nat): (ts: seq<Table<V>>)
    requires i <= |crops|
    ensures |ts| == |crops| - i
    ensures forall k :: 0 <= k < |ts| ==> ts[k] == MakeTable(data, gs, numCols, crops[i + k])
  {
    seq(|crops| - i, k requires 0 <= k < |crops| - i => MakeTable(data, gs, numCols, crops[i + k]))
  }

  /**
   * When every crop has states, the loop skips none, and its output is the
   * crops' tables with a page break between each two.
   */
  lemma {:induction false} CropLoopSeparates<V>(data: Lookup<V>, gs: seq<Group>, numCols: int, crops: seq<string>, i: nat)
    requires i <= |crops|
    requires forall c :: c in crops ==> c in CropsOf(data)
    ensures RenderCrops(data, gs, numCols, crops, i) == Separated(TablesFrom(data, gs, numCols, crops, i))
    decreases |crops| - i
  {
    if i < |crops| {
      CropLoopSeparates(data, gs, numCols, crops, i + 1);
      CropStep(data, gs, numCols, crops, i);
    } else {
      CropLoopEnd(data, gs, numCols, crops, i);
    }
  }

  /** Past the last crop the loop writes nothing. */
  lemma CropLoopEnd<V>(data: Lookup<V>, gs: seq<Group>, numCols: int, crops: seq<string>, i: nat)
    requires i == |crops|
    ensures RenderCrops(data, gs, numCols, crops, i) == Separated(TablesFrom(data, gs, numCols, crops, i)) == []
  {
  }

  lemma CropStep<V>(data: Lookup<V>, gs: seq<Group>, numCols: int, crops: seq<string>, i: nat)
    requires i < |crops|
    requires forall c :: c in crops ==> c in CropsOf(data)
    requires RenderCrops(data, gs, numCols, crops, i + 1) == Separated(TablesFrom(data, gs, numCols, crops, i + 1))
    ensures RenderCrops(data, gs, numCols, crops, i) == Separated(TablesFrom(data, gs, numCols, crops, i))
  {
    assert crops[i] in crops;
    CropHasStates(data, crops[i]);
    var ts := TablesFrom(data, gs, numCols, crops, i);
    var rest := TablesFrom(data, gs, numCols, crops, i + 1);
    var table := MakeTable(data, gs, numCols, crops[i]);
    assert ts[0] == table;
    assert ts[1..] == rest;
    var tail := RenderCrops(data, gs, numCols, crops, i + 1);
    if i < |crops| - 1 {
      assert RenderCrops(data, gs, numCols, crops, i) == [CropTable(table), PageBreak] + tail;
      SeparatedCons(ts);
    } else {
      assert tail == [] && rest == [];
      assert RenderCrops(data, gs, numCols, crops, i) == [CropTable(table)];
    }
  }

  lemma SeparatedCons<V>(ts: seq<Table<V>>)
    requires |ts| > 1
    ensures Separated(ts) == [CropTable(ts[0]), PageBreak] + Separated(ts[1..])
  {
  }

  /** The report aborts exactly when there is no data: a rejected period label, an unreachable store, or no rows. */
  lemma AbortsExactlyWithoutData<V>(period: string, reply: StoreReply<V>)
    ensures CreateReport(period, reply) == Aborted(NoData) <==>
      FiscalYears.PreviousYears(period, 2).Failure? || reply.Unreachable? || |reply.rows| == 0
  {
    if FiscalYears.PreviousYears(period, 2).Success? && reply.Answered? {
      var data := FetchData(period, reply).data;
      if |reply.rows| > 0 {
        assert KeyOf(reply.rows[0]) in data;
      } else {
        assert data == map[];
      }
    }
  }

  /**
   * A written report holds one table per crop in sorted order, separated by
   * page breaks, each table `3 + 2 * |methods|` columns wide.
   */
  lemma WrittenShape<V>(period: string, reply: StoreReply<V>)
    requires CreateReport(period, reply).Written?
    ensures reply.Answered?
    ensures var data := Reshape(reply.rows);
      var crops := SortedListing(CropsOf(data));
      var gs := BuildHeaders(period, reply.methods);
      var bs := CreateReport(period, reply).blocks;
      && NumCols(gs) == 3 + 2 * |reply.methods|
      && |bs| == 2 * |crops| - 1
      && (forall k :: 0 <= k < |crops| ==> bs[2 * k] == CropTable(MakeTable(data, gs, NumCols(gs), crops[k])))
      && (forall k :: 0 <= k < |crops| - 1 ==> bs[2 * k + 1] == PageBreak)
  {
    var data := Reshape(reply.rows);
    var gs := BuildHeaders(period, reply.methods);
    BuiltColumns(period, reply.methods);
    assert CreateReport(period, reply).blocks == RenderCrops(data, gs, NumCols(gs), SortedListing(CropsOf(data)), 0);
    LoopShape(data, gs, NumCols(gs));
  }

  lemma LoopShape<V>(data: Lookup<V>, gs: seq<Group>, numCols: int)
    requires data != map[]
    ensures var crops := SortedListing(CropsOf(data));
      var bs := RenderCrops(data, gs, numCols, crops, 0);
      && |bs| == 2 * |crops| - 1
      && (forall k :: 0 <= k < |crops| ==> bs[2 * k] == CropTable(MakeTable(data, gs, numCols, crops[k])))
      && (forall k :: 0 <= k < |crops| - 1 ==> bs[2 * k + 1] == PageBreak)
  {
    var crops := SortedListing(CropsOf(data));
    assert |crops| > 0;
    CropLoopSeparates(data, gs, numCols, crops, 0);
    SeparatedShape(TablesFrom(data, gs, numCols, crops, 0));
  }

  /**
   * Every table of a written report has a header covering each column once,
   * one row per state of the crop in sorted order, and every row writes each
   * column once, its state name first.
   */
  lemma TableShape<V>(data: Lookup<V>, gs: seq<Group>, crop: string)
    requires AtMostTwoSubs(gs)
    ensures var t := MakeTable(data, gs, NumCols(gs), crop);
      var states := SortedListing(StatesOf(data, crop));
      && Covered(t.header) == Range(0, NumCols(gs))
      && |t.rows| == |StatesOf(data, crop)|
      && StrictlySorted(states)
      && (forall k :: 0 <= k < |t.rows| ==> t.rows[k][0] == Write(0, Text(states[k])))
      && (forall k :: 0 <= k < |t.rows| ==> Columns(t.rows[k]) == Range(0, NumCols(gs)))
      && (forall k :: 0 <= k < |t.rows| ==> t.rows[k] == [Write(0, Text(states[k]))] + Filled(gs, 1, data, crop, states[k]))
      && |t.header| == |gs| + 1
      && (forall i :: 0 <= i < |gs| ==> Titles(t.header[i + 1], gs[i]))
  {
    var t := MakeTable(data, gs, NumCols(gs), crop);
    var states := SortedListing(StatesOf(data, crop));
    HeaderOfFills(gs);
    forall k | 0 <= k < |t.rows|
      ensures t.rows[k] == [Write(0, Text(states[k]))] + Filled(gs, 1, data, crop, states[k])
      ensures Columns(t.rows[k]) == Range(0, NumCols(gs))
    {
      RowIsFilled(gs, data, crop, states[k]);
      RowFillsTable(gs, data, crop, states[k]);
    }
  }

  /**
   * With `num_cols` derived from the groups, the header rows hold "State"
   * and then one cell per group carrying its titles, covering every column once.
   */
  lemma HeaderOfFills(gs: seq<Group>)
    ensures var h := HeaderOf(gs, NumCols(gs));
      && |h| == |gs| + 1
      && Covered(h) == Range(0, NumCols(gs))
      && (forall i :: 0 <= i < |gs| ==> Titles(h[i + 1], gs[i]))
  {
    var h := HeaderOf(gs, NumCols(gs));
    var p := PlaceHeaders(gs, NumCols(gs), 1);
    HeaderFillsTable(gs);
    assert h == [Tall(0, "State")] + p.cells;
    forall i | 0 <= i < |gs|
      ensures Titles(h[i + 1], gs[i])
    {
      assert h[i + 1] == p.cells[i];
    }
  }

  /**
   * With `num_cols` derived from the groups, a data row is the state name
   * followed by the intended row: no guard drops a cell.
   */
  lemma RowIsFilled<V>(gs: seq<Group>, data: Lookup<V>, crop: string, state: string)
    ensures RowOf(gs, NumCols(gs), data, crop, state) == [Write(0, Text(state))] + Filled(gs, 1, data, crop, state)
  {
    CheckedGuardsNeverFire(gs, NumCols(gs), 1, data, crop, state);
  }
}

=== FILE: scenario.dfy ===
/**
 * The end-to-end case: one crop, one state, one forecasting method with a
 * yield and an RMSE for the target year, nothing for the two preceding years.
 */
module Scenario {
  import opened Wrappers
  import opened Casing
  import opened Ordering
  import FiscalYears
  import opened YieldData
  import opened Layout
  import opened Report

  function Rows(): seq<Row<string>> {
    [Row("Rice", "Assam", "2024-25", "ML", Some("3.2"), Some("0.1"))]
  }

  /** The lookup the single row folds into. */
  function Data(): Lookup<string> {
    map[Key("rice", "Assam", "2024-25", "ML") := Pair(Some("3.2"), Some("0.1"))]
  }

  lemma FoldedScenario()
    ensures Reshape(Rows()) == Data()
  {
    assert Lower("Rice") == "rice";
    var m := Reshape(Rows());
    assert m.Keys == {Key("rice", "Assam", "2024-25", "ML")};
  }

  lemma ScenarioListings()
    ensures var data := Reshape(Rows());
      && SortedListing(CropsOf(data)) == ["rice"]
      && SortedListing(StatesOf(data, "rice")) == ["Assam"]
  {
    FoldedScenario();
    ScenarioCrops();
    ScenarioStates();
  }

  lemma ScenarioCrops()
    ensures CropsOf(Data()) == {"rice"}
  {
    assert Key("rice", "Assam", "2024-25", "ML") in Data();
  }

  lemma ScenarioStates()
    ensures StatesOf(Data(), "rice") == {"Assam"}
  {
    assert Key("rice", "Assam", "2024-25", "ML") in Data();
  }

  function Groups(): seq<Group> {
    [Group("2024-25", "ML", Metrics), Group("2023-24", Baseline, []), Group("2022-23", Baseline, [])]
  }

  lemma ScenarioHeaders()
    ensures BuildHeaders("2024-25", ["ML"]) == Groups()
    ensures NumCols(Groups()) == 5
  {
    FiscalYears.ShortExample();
    HeadersFrom("2024-25", ["ML"], "2023-24", "2022-23");
    ScenarioAssembled();
    ScenarioColumns();
  }

  lemma ScenarioAssembled()
    ensures Assemble("2024-25", ["ML"], "2023-24", "2022-23") == Groups()
  {
    var gs := Assemble("2024-25", ["ML"], "2023-24", "2022-23");
    assert |gs| == 3;
    assert gs[0] == Groups()[0] && gs[1] == Groups()[1] && gs[2] == Groups()[2];
  }

  lemma ScenarioColumns()
    ensures NumCols(Groups()) == 5
  {
    var gs := Groups();
    assert TotalWidth(gs[2..]) == 1;
    assert gs[1..][1..] == gs[2..];
  }

  lemma ScenarioFilled()
    ensures Filled(Groups(), 1, Data(), "rice", "Assam")
      == [Write(1, Datum("3.2")), Write(2, Datum("0.1")), Write(3, Blank), Write(4, Blank)]
  {
    var gs := Groups();
    var data := Data();
    assert gs[1..] == [Group("2023-24", Baseline, []), Group("2022-23", Baseline, [])];
    assert gs[1..][1..] == [Group("2022-23", Baseline, [])];
    assert gs[1..][1..][1..] == [];
    assert Find(data, "rice", "Assam", "2024-25", "ML") == Pair(Some("3.2"), Some("0.1"));
    assert Find(data, "rice", "Assam", "2023-24", Baseline) == Pair(None, None);
    assert Find(data, "rice", "Assam", "2022-23", Baseline) == Pair(None, None);
    assert Filled(gs[1..][1..], 4, data, "rice", "Assam") == [Write(4, Blank)];
    assert Filled(gs[1..], 3, data, "rice", "Assam") == [Write(3, Blank), Write(4, Blank)];
  }

  lemma ScenarioRow()
    ensures RowOf(Groups(), 5, Data(), "rice", "Assam")
      == [Write(0, Text("Assam")), Write(1, Datum("3.2")), Write(2, Datum("0.1")), Write(3, Blank), Write(4, Blank)]
  {
    var gs := Groups();
    ScenarioColumns();
    RowIsFilled(gs, Data(), "rice", "Assam");
    ScenarioFilled();
  }

  lemma ScenarioTable()
    ensures MakeTable(Data(), Groups(), 5, "rice").rows
      == [[Write(0, Text("Assam")), Write(1, Datum("3.2")), Write(2, Datum("0.1")), Write(3, Blank), Write(4, Blank)]]
  {
    FoldedScenario();
    ScenarioListings();
    ScenarioRow();
    var t := MakeTable(Data(), Groups(), 5, "rice");
    assert |t.rows| == 1;
    assert t.rows[0] == RowOf(Groups(), 5, Data(), "rice", "Assam");
  }

  /**
   * The report holds a single table with one data row: the state, the
   * yield "3.2", the RMSE "0.1", and two blank baseline cells for the
   * preceding years.
   */
  lemma EndToEnd()
    ensures var out := CreateReport("2024-25", Answered(["ML"], Rows()));
      && out.Written?
      && |out.blocks| == 1
      && out.blocks[0] == CropTable(MakeTable(Data(), Groups(), 5, "rice"))
      && out.blocks[0].table.rows == [[Write(0, Text("Assam")), Write(1, Datum("3.2")), Write(2, Datum("0.1")), Write(3, Blank), Write(4, Blank)]]
  {
    var reply: StoreReply<string> := Answered(["ML"], Rows());
    FiscalYears.ShortExample();
    FoldedScenario();
    ScenarioListings();
    ScenarioHeaders();
    AbortsExactlyWithoutData("2024-25", reply);
    WrittenShape("2024-25", reply);
    ScenarioTable();
  }
}

=== FILE: wrappers.dfy ===
/** Option and Result, the failure-carrying values used throughout the model. */
module Wrappers {

  /** A value that may be absent: Python's `None` or a present value. */
  datatype Option<+T> = None | Some(value: T)

  /** The outcome of an operation that may raise: a value or an error. */
  datatype Result<+R, +E> = Success(value: R) | Failure(error: E)
}

=== FILE: yield_data.dfy ===
/**
 * The yield lookup built by `fetch_data`: query rows folded into a map keyed
 * by (lower-cased crop, state, year, model), and the soft-fail contract that
 * turns a bad period label or an unreachable store into "no data".
 */
module YieldData {
  import opened Wrappers
  import opened Casing
  import FiscalYears

  /** One result row: crop, state, year label, method, yield and RMSE (either may be NULL). */
  datatype Row<V> = Row(crop: string, state: string, year: string, model: string, yieldValue: Option<V>, rmse: Option<V>)

  /** The four levels of the nested lookup, flattened into one key. */
  datatype Key = Key(crop: string, state: string, year: string, model: string)

  /** The `(yield, rmse)` tuple stored at a key. */
  datatype Pair<V> = Pair(yieldValue: Option<V>, rmse: Option<V>)

  type Lookup<V> = map<Key, Pair<V>>

  function KeyOf<V>(r: Row<V>): Key {
    Key(Lower(r.crop), r.state, r.year, r.model)
  }

  function PairOf<V>(r: Row<V>): Pair<V> {
    Pair(r.yieldValue, r.rmse)
  }

  /** Row `i` is the last row carrying its key. */
  predicate LastWithKey<V>(rows: seq<Row<V>>, i: int) {
    0 <= i < |rows| && forall j :: i < j < |rows| ==> KeyOf(rows[j]) != KeyOf(rows[i])
  }

  /**
   * The fold of lines 113-115: every row's key is present, no other key is,
   * and each key holds the values of the last row that carries it.
   */
  function Reshape<V>(rows: seq<Row<V>>): (m: Lookup<V>)
    ensures forall k :: k in m <==> exists i :: 0 <= i < |rows| && KeyOf(rows[i]) == k
    ensures forall i :: LastWithKey(rows, i) ==> KeyOf(rows[i]) in m && m[KeyOf(rows[i])] == PairOf(rows[i])
    decreases |rows|
  {
    if |rows| == 0 then map[]
    else
      var init := rows[..|rows| - 1];
      var last := rows[|rows| - 1];
      var m := Reshape(init)[KeyOf(last) := PairOf(last)];
      ReshapeStep(rows, Reshape(init), m);
      m
  }

  /** One step of the fold, for the key set: adding the last row adds exactly its key. */
  lemma ReshapeStep<V>(rows: seq<Row<V>>, prior: Lookup<V>, m: Lookup<V>)
    requires |rows| > 0
    requires var init := rows[..|rows| - 1];
      forall k :: k in prior <==> exists i :: 0 <= i < |init| && KeyOf(init[i]) == k
    requires var init := rows[..|rows| - 1];
      forall i :: LastWithKey(init, i) ==> KeyOf(init[i]) in prior && prior[KeyOf(init[i])] == PairOf(init[i])
    requires m == prior[KeyOf(rows[|rows| - 1]) := PairOf(rows[|rows| - 1])]
    ensures forall k :: k in m <==> exists i :: 0 <= i < |rows| && KeyOf(rows[i]) == k
    ensures forall i :: LastWithKey(rows, i) ==> KeyOf(rows[i]) in m && m[KeyOf(rows[i])] == PairOf(rows[i])
  {
    StepKeys(rows, prior, m);
    StepValues(rows, prior, m);
  }

  lemma StepKeys<V>(rows: seq<Row<V>>, prior: Lookup<V>, m: Lookup<V>)
    requires |rows| > 0
    requires var init := rows[..|rows| - 1];
      forall k :: k in prior <==> exists i :: 0 <= i < |init| && KeyOf(init[i]) == k
    requires m == prior[KeyOf(rows[|rows| - 1]) := PairOf(rows[|rows| - 1])]
    ensures forall k :: k in m <==> exists i :: 0 <= i < |rows| && KeyOf(rows[i]) == k
  {
    var n := |rows| - 1;
    var init := rows[..n];
    forall k | k in m
      ensures exists i :: 0 <= i < |rows| && KeyOf(rows[i]) == k
    {
      if k != KeyOf(rows[n]) {
        var i :| 0 <= i < |init| && KeyOf(init[i]) == k;
        assert rows[i] == init[i];
      }
    }
    forall k | exists i :: 0 <= i < |rows| && KeyOf(rows[i]) == k
      ensures k in m
    {
      var i :| 0 <= i < |rows| && KeyOf(rows[i]) == k;
      if i < n {
        assert init[i] == rows[i];
      }
    }
  }

  lemma StepValues<V>(rows: seq<Row<V>>, prior: Lookup<V>, m: Lookup<V>)
    requires |rows| > 0
    requires var init := rows[..|rows| - 1];
      forall i :: LastWithKey(init, i) ==> KeyOf(init[i]) in prior && prior[KeyOf(init[i])] == PairOf(init[i])
    requires m == prior[KeyOf(rows[|rows| - 1]) := PairOf(rows[|rows| - 1])]
    ensures forall i :: LastWithKey(rows, i) ==> KeyOf(rows[i]) in m && m[KeyOf(rows[i])] == PairOf(rows[i])
  {
    var n := |rows| - 1;
    var init := rows[..n];
    forall i | LastWithKey(rows, i)
      ensures KeyOf(rows[i]) in m && m[KeyOf(rows[i])] == PairOf(rows[i])
    {
      if i < n {
        assert init[i] == rows[i];
        assert LastWithKey(init, i);
      }
    }
  }

  /** The crop names of the lookup: `data.keys()`. */
  function CropsOf<V>(m: Lookup<V>): (r: set<string>)
    ensures forall k :: k in m ==> k.crop in r
    ensures r == {} <==> m == map[]
  {
    set k | k in m :: k.crop
  }

  /** The states recorded for a crop: `data[crop].keys()`. */
  function StatesOf<V>(m: Lookup<V>, crop: string): (r: set<string>)
    ensures forall k :: k in m && k.crop == crop ==> k.state in r
    ensures r != {} ==> crop in CropsOf(m)
  {
    set k | k in m && k.crop == crop :: k.state
  }

  /** `years.get(year, {}).get(method, (None, None))` for one crop and state. */
  function Find<V>(m: Lookup<V>, crop: string, state: string, year: string, model: string): (p: Pair<V>)
    ensures Key(crop, state, year, model) in m ==> p == m[Key(crop, state, year, model)]
    ensures p.yieldValue.Some? || p.rmse.Some? ==> Key(crop, state, year, model) in m
  {
    var k := Key(crop, state, year, model);
    if k in m then m[k] else Pair(None, None)
  }

  /** A crop that appears in the lookup has at least one state, so the empty-crop skip never fires on folded data. */
  lemma CropHasStates<V>(m: Lookup<V>, crop: string)
    requires crop in CropsOf(m)
    ensures StatesOf(m, crop) != {}
  {
    var k :| k in m && k.crop == crop;
    assert k.state in StatesOf(m, crop);
  }

  /** Every crop key of the folded lookup is already lower-case. */
  lemma FoldedCropsAreLower<V>(rows: seq<Row<V>>, crop: string)
    requires crop in CropsOf(Reshape(rows))
    ensures Lower(crop) == crop
  {
    var m := Reshape(rows);
    var k :| k in m && k.crop == crop;
    var i :| 0 <= i < |rows| && KeyOf(rows[i]) == k;
    LowerIdempotent(rows[i].crop);
  }

  /**
   * Looking a row's coordinates up after the fold gives the values of the
   * last row with the same key, and `(None, None)` when no row has that key.
   */
  lemma FindAfterReshape<V>(rows: seq<Row<V>>, crop: string, state: string, year: string, model: string)
    ensures var p := Find(Reshape(rows), Lower(crop), state, year, model);
      && ((forall i :: 0 <= i < |rows| ==> KeyOf(rows[i]) != Key(Lower(crop), state, year, model)) ==> p == Pair(None, None))
      && (forall i :: LastWithKey(rows, i) && KeyOf(rows[i]) == Key(Lower(crop), state, year, model) ==> p == PairOf(rows[i]))
  {
  }

  /** What the store answered: unreachable, or the method list and the rows of the second query. */
  datatype StoreReply<V> = Unreachable | Answered(methods: seq<string>, rows: seq<Row<V>>)

  datatype Fetched<V> = Fetched(data: Lookup<V>, methods: seq<string>)

  /**
   * `fetch_data`: a period label the year derivation rejects, or a store that
   * cannot be reached, gives an empty lookup and no methods; otherwise the
   * method list as answered and the folded rows.
   */
  function FetchData<V>(period: string, reply: StoreReply<V>): (f: Fetched<V>)
    ensures FiscalYears.PreviousYears(period, 2).Failure? || reply.Unreachable? ==> f == Fetched(map[], [])
    ensures FiscalYears.PreviousYears(period, 2).Success? && reply.Answered? ==>
      f.methods == reply.methods && f.data == Reshape(reply.rows)
      && f.data.Keys == set i | 0 <= i < |reply.rows| :: KeyOf(reply.rows[i])
    ensures f.data != map[] ==> FiscalYears.PreviousYears(period, 2).Success?
  {
    match FiscalYears.PreviousYears(period, 2)
    case Failure(_) => Fetched(map[], [])
    case Success(_) =>
      match reply
      case Unreachable => Fetched(map[], [])
      case Answered(methods, rows) => Fetched(Reshape(rows), methods)
  }
}
